=== FILE: README.md ===
# Portfolio site: onboarding wizard, mail handlers and UI state, in Dafny

This project models the logic of a freelance developer's portfolio site, a React
single-page application with two serverless endpoints.

- **Client onboarding wizard** (`pages/Onboarding.tsx`). Five steps: validation, design, content, contact, success. A gate on the first step requires first name, last name and company name. The logo and up to three photos are capped at 512 KiB each. A weekly schedule has per-day times and a "closed" flag. Submission encodes the files as data URLs, posts a JSON payload and maps the response to Success or to an error message.
- **`/api/submit-onboarding`**. Rejects non-POST requests with 405. Builds attachments from the logo and photo data URLs, keeping the text between the first and the second comma. Composes an HTML email and maps the email provider's answer to 200, 400 or 500.
- **`/api/send-email`**. Answers a CORS preflight (OPTIONS) with 200 and rejects other non-POST requests with 405. Requires name, email and message before calling the provider. Turns line feeds of the message into `<br>`.
- **UI state**:
  - the project gallery filter and its three-tag cap;
  - the skills marquee's halves and four-fold rows;
  - the contact form's status machine;
  - the theme's restore, toggle and persistence;
  - the cookie banner's consent decision and the Tag Manager loader guard.

The modules follow the program's structure:

| file | module | models |
|---|---|---|
| `js.dfy` | `Js` | JavaScript truthiness, `\|\|`, template interpolation, `replace(/\n/g,'<br>')`, `split(',')` |
| `seqs.dfy` | `Seqs` | `filter`, `slice(0, n)`, filter-by-index, repetition, subsequences |
| `http.dfy` | `Http` | responses, the email handed to the provider, the provider's outcomes |
| `submit_onboarding.dfy` | `SubmitOnboarding` | `api/submit-onboarding.ts` |
| `send_email.dfy` | `SendEmail` | `api/send-email.ts` |
| `onboarding_form.dfy` | `OnboardingForm` | the wizard's form state and its editing handlers |
| `onboarding_wizard.dfy` | `OnboardingWizard` | step moves, payload, submission, the page's controls |
| `onboarding_pipeline.dfy` | `OnboardingPipeline` | the wizard and `/api/submit-onboarding` composed |
| `projects.dfy` | `Projects` | `components/Projects.tsx` |
| `skills.dfy` | `SkillsMarquee` | `Exemple/Skills.tsx` |
| `contact.dfy` | `Contact` | `components/Contact.tsx` |
| `theme.dfy` | `Theme` | the theme logic of `App.tsx` |
| `cookie_consent.dfy` | `CookieConsent` | `components/ui/CookieConsent.tsx` |

Everything the code reaches outside itself is a parameter of the model:

- the browser's `FileReader` is `encode: File -> Option<string>`, with `None` for a read that fails;
- the email provider (Resend) is `provider: Email -> ProviderOutcome`;
- `fetch` to the onboarding endpoint is `server: Payload -> SubmitOutcome`, and `OnboardingPipeline.Endpoint` plugs the handler model in as that server;
- local storage values, the presence of `window` and of `window.google_tag_manager`, and the Web3Forms reply are plain inputs or state fields.

Where the code differs from what a reader might expect, the model follows the code:

- The required-field checks compare against the empty string only. No trimming is done, so a value of spaces passes.
- An attachment's content is `split(',')[1]`: the text between the first and second comma, not everything after the first comma.
- User text is put into the HTML emails without escaping. Only line feeds become `<br>`.
- The onboarding payload sends the schedule as an object, so the email template renders it as `[object Object]`.
- The handler never reads `transferLink`.

  `OnboardingPipeline.EmailIgnoresLinkAndHours` states both of these last two behaviours.

## Model

| member | source | states |
|---|---|---|
| Js.NullAndUndefinedDiffer | api/submit-onboarding.ts:44 | a template renders `null` and `undefined` differently |
| Js.BreakLines | api/send-email.ts:40 | replacing line feeds by `<br>` leaves no line feed, grows the text by 3 characters per line feed, and leaves text without line feeds unchanged |
| Js.BreakLinesAppend | api/submit-onboarding.ts:55-57 | the replacement works character by character: replacing in a concatenation is concatenating the replacements |
| Js.BreakLinesRoundTrip | api/send-email.ts:40 | for text without `<`, turning each `<br>` back into a line feed gives back the original text, so nothing but the line feeds is altered |
| Js.Split | api/submit-onboarding.ts:22 | `split` yields one more part than there are separators, no part holds the separator, and joining the parts with it gives back the string |
| Js.SplitAfterPrefix | api/submit-onboarding.ts:22 | splitting `p + sep + rest` where `p` has no separator gives `p` followed by the parts of `rest` |
| Js.SplitNoSeparator | api/submit-onboarding.ts:22 | a string without the separator splits into itself alone |
| Js.JoinCons | api/submit-onboarding.ts:22 | prepending a character to the first part prepends it to the joined string |
| Js.SplitJoin | api/submit-onboarding.ts:22 | splitting a join of separator-free parts gives back the parts |
| Js.DecimalString | api/submit-onboarding.ts:35 | the decimal rendering of a number in `photo-${index + 1}.png` is non-empty and made of digits only |
| Js.DecimalRoundTrip | api/submit-onboarding.ts:35 | reading the decimal rendering back gives the number, so distinct photo positions get distinct default names |
| Seqs.Filter | pages/Onboarding.tsx:106 | the kept elements all satisfy the predicate and come from the input, and every input element that satisfies it is kept |
| Seqs.FilterSingleton | pages/Onboarding.tsx:106 | one element is kept exactly when it passes; with `FilterAppend` this fixes the result on every input |
| Seqs.FilterCounts | pages/Onboarding.tsx:106 | every occurrence of a passing element is kept and none of any other: the filter neither duplicates nor loses copies |
| Seqs.FilterIsSubsequence | components/Projects.tsx:16 | filtering keeps the input's order: the result is a subsequence of the input |
| Seqs.SubsequenceLength | components/Projects.tsx:16 | a subsequence is never longer than the sequence it is taken from |
| Seqs.FilterAppend | pages/Onboarding.tsx:106 | filtering a concatenation is concatenating the filtered parts |
| Seqs.FilterAll | pages/Onboarding.tsx:106-108 | when every element satisfies the predicate, filtering returns the input itself |
| Seqs.Take | components/Projects.tsx:80 | `slice(0, n)` is a prefix of the input of length `min(n, length)` |
| Seqs.TakeAfterPrefix | pages/Onboarding.tsx:113 | when the first part fits under the cap, cutting the concatenation keeps the first part whole and cuts the second to the room left |
| Seqs.TakeAppendTake | pages/Onboarding.tsx:113 | cutting to `n`, appending, and cutting again is the same as appending then cutting once |
| Seqs.RemoveAt | pages/Onboarding.tsx:120-125 | filtering out index `i` removes exactly the element at `i` and keeps the rest in order; an index out of range removes nothing |
| Seqs.Repeat | Exemple/Skills.tsx:13-14 | `k` copies of `s` have length `k·\|s\|`, start with `s`, and are periodic with period `\|s\|` |
| Http.ProviderResponse | api/submit-onboarding.ts:71-80 | status 200 exactly when the provider delivered, carrying its data; a provider error gives 400 with its message; an exception gives 500, with its own truthy message or the fixed internal-error message (the contact handler always uses the fixed one) |
| SubmitOnboarding.AttachmentContent | api/submit-onboarding.ts:22 | the content never holds a comma, is the value itself when it has no comma, and is strictly shorter otherwise |
| SubmitOnboarding.ContentRoundTrip | api/submit-onboarding.ts:20-27 | a data URL `marker,payload` with a comma-free marker and payload yields the payload; a bare payload yields itself |
| SubmitOnboarding.ContentStopsAtSecondComma | api/submit-onboarding.ts:22 | content is what lies between the first and second comma: a payload followed by `,tail` loses the tail |
| SubmitOnboarding.PngDataUrlContent | api/submit-onboarding.ts:21-22 | the prefix `data:image/png;base64,` is removed from a comma-free payload |
| SubmitOnboarding.TruthyIndices | api/submit-onboarding.ts:30-31 | every listed position is in range and holds a truthy photo entry, and there are no more positions than entries |
| SubmitOnboarding.TruthyIndicesOrdered | api/submit-onboarding.ts:30-31 | the truthy positions are listed in strictly increasing order, and every truthy position is listed |
| SubmitOnboarding.PhotoAttachments | api/submit-onboarding.ts:29-39 | one attachment per truthy photo, in order, each built from the photo at its original position (so the default name counts skipped entries) |
| SubmitOnboarding.Attachments | api/submit-onboarding.ts:18-39 | the attachment count is one for a truthy logo plus one per truthy photo; the logo comes first with its name or `logo.png`; a non-array `photos` contributes nothing |
| SubmitOnboarding.LogoExample | api/submit-onboarding.ts:20-26 | a PNG data-URL logo without a name becomes the first attachment, named `logo.png` and holding the payload |
| SubmitOnboarding.PhotoIndexKept | api/submit-onboarding.ts:30-35 | when the first photo entry is empty and no names are sent, the second photo is still named `photo-2.png` |
| SubmitOnboarding.RenderText | api/submit-onboarding.ts:55-57 | a truthy text is rendered with its line feeds turned into `<br>`; an absent or empty one as `Non renseigné` |
| SubmitOnboarding.DefaultPhotoNamesDistinct | api/submit-onboarding.ts:35 | when no names are sent, photos at different positions get different default names |
| SubmitOnboarding.Compose | api/submit-onboarding.ts:41-69 | the email goes from the onboarding sender to the owner, replies to the client's email, has the subject `[ONBOARDING] Nouveau dossier : ` followed by the company as a template renders it, and carries exactly the attachments built from the body |
| SubmitOnboarding.NullCompanySubject | api/submit-onboarding.ts:44 | a company sent as `null` gives the subject ending in `null`, and a missing one the subject ending in `undefined` |
| SubmitOnboarding.HtmlShowsClient | api/submit-onboarding.ts:47-51 | the message shows the company between the heading's opening text and `</h1>`, the client name (or `N/A`) in parentheses right after the contact's first and last names, and the company again in the "Entreprise" paragraph |
| SubmitOnboarding.HtmlShowsContent | api/submit-onboarding.ts:54-57 | the message shows the rendered presentation and services, each in the paragraph right under its own heading |
| SubmitOnboarding.HtmlShowsContact | api/submit-onboarding.ts:59-65 | the "3. Contact" list shows the client's email, phone, address, hours and social links, each in its own labelled item, so the owner has the details to reply |
| SubmitOnboarding.ComposeIgnoresTransferLink | api/submit-onboarding.ts:11-16 | the email does not depend on `transferLink` |
| SubmitOnboarding.Handle | api/submit-onboarding.ts:5-80 | a non-POST request gets 405 and sends nothing; a POST always sends the composed email; 200 exactly when delivered, 400 exactly on a provider error, 500 exactly on an exception |
| SendEmail.Compose | api/send-email.ts:28-43 | the email goes from the portfolio contact sender to the owner, the subject is `[NOUVEAU PROJET] - ` followed by the name, replies go to the sender's email, there are no attachments, and the HTML is the head (heading, name, email, subject) followed by the message with line feeds as `<br>` and the fixed tail |
| SendEmail.HtmlShowsSender | api/send-email.ts:35-37 | the message shows the sender's name, email and subject (a missing subject as `undefined`, a `null` one as `null`) each in its labelled paragraph |
| SendEmail.Send | api/send-email.ts:21-54 | a body missing name, email or message gets 400 with the fixed message and the provider is not called; otherwise the composed email is sent and the outcome maps to 200 with the data, 400 with the provider's message, or 500 with the fixed internal-error message |
| SendEmail.Handle | api/send-email.ts:5-55 | OPTIONS gets a bodiless 200; any other non-POST gets 405; a POST is handled as above; only a POST can reach the provider |
| SendEmail.MissingEmailNeverSends | api/send-email.ts:21-25 | a POST without an email address is answered 400 and never reaches the provider |
| OnboardingForm.InitialHours | pages/Onboarding.tsx:64-72 | every day starts at 09:00–12:00 and 14:00–18:00, and exactly Saturday and Sunday start closed |
| OnboardingForm.ChangeSchedule | pages/Onboarding.tsx:82-93 | a schedule edit changes the one field of the one day it targets, and every other day and field stays as it was |
| OnboardingForm.InitialForm | pages/Onboarding.tsx:52-75 | the client name comes from a truthy `client` query parameter (else empty), there are no files, every text field starts empty, the hours are the initial schedule, and the form is valid |
| OnboardingForm.SetText | pages/Onboarding.tsx:77-80 | typing into a field sets that field to the value and leaves every other field, the files and the hours unchanged |
| OnboardingForm.SetTextLastWins | pages/Onboarding.tsx:77-80 | typing twice into the same field keeps only the last value |
| OnboardingForm.SetHours | pages/Onboarding.tsx:82-93 | a schedule change touches only the hours, exactly as the schedule edit says |
| OnboardingForm.SelectLogo | pages/Onboarding.tsx:95-103 | only the logo can change; the first chosen file becomes the logo exactly when it fits the 512 KiB bound, and the warning is given exactly when it does not |
| OnboardingForm.AddPhotos | pages/Onboarding.tsx:105-115 | only the photos change; an empty selection changes nothing; otherwise the new list is the existing photos followed by the fitting chosen files, in the order chosen, cut to the room left under three (a list already over three is cut to three); the warning is given exactly when some chosen file does not fit |
| OnboardingForm.FilterCountsKept | pages/Onboarding.tsx:106-108 | the filtered list is as long as the chosen files exactly when every file fits, which is the warning's condition |
| OnboardingForm.AddPhotosInBatches | pages/Onboarding.tsx:112-114 | choosing photos in two batches gives the same list as choosing them all at once |
| OnboardingForm.AddPhotosWhenFull | pages/Onboarding.tsx:113 | with three photos already, adding changes nothing |
| OnboardingForm.RemovePhoto | pages/Onboarding.tsx:120-125 | only the photos change; the photo at the index is removed and the others keep their order; the size bound is kept |
| OnboardingForm.AddThenRemovePhoto | pages/Onboarding.tsx:105-125 | adding one fitting photo below the cap and removing it again restores the form |
| OnboardingWizard.Initial | pages/Onboarding.tsx:48-75 | the wizard opens on the validation step, with no error, nothing submitting and the initial form, so the first step's gate starts closed |
| OnboardingWizard.NextStep | pages/Onboarding.tsx:127-140 | the error is cleared, or set to the required-fields message exactly when the gate fails; the step moves exactly one position forward unless it is contact or success or the gate fails |
| OnboardingWizard.PrevStep | pages/Onboarding.tsx:142-147 | the error is cleared; the step moves exactly one position back unless it is validation or success |
| OnboardingWizard.BackUndoesNext | pages/Onboarding.tsx:127-147 | from validation with the gate passing, or from design or content, going forward then back returns to the same step |
| OnboardingWizard.NextUndoesBack | pages/Onboarding.tsx:127-147 | from content or contact, or from design with the gate passing, going back then forward returns to the same step |
| OnboardingWizard.EncodeAll | pages/Onboarding.tsx:164 | all files are encoded in order, and the batch fails exactly when one read fails |
| OnboardingWizard.BuildPayload | pages/Onboarding.tsx:163-172 | the payload fails exactly when some file cannot be read; photos and photo names run parallel to the form's photos; logo and logo name are absent exactly when no logo was chosen; first name, last name, company, client name, presentation, services, phone, email, address, socials, transfer link and hours are copied unchanged |
| OnboardingWizard.BeginSubmit | pages/Onboarding.tsx:159-160 | submitting sets the running flag and clears the error, touching nothing else |
| OnboardingWizard.SettleSubmit | pages/Onboarding.tsx:180-193 | the flag is cleared; Success is reached exactly on an ok status with `success`; otherwise the step stays and a non-empty error shows: the connection message for an exception or an unreadable body, the server's error text when it is non-empty, and `Une erreur est survenue.` for an empty error text or a non-ok `success` reply |
| OnboardingWizard.HandleSubmit | pages/Onboarding.tsx:158-194 | a file that cannot be read ends on the connection message; otherwise Success exactly when the server's answer is ok and reports success |
| OnboardingWizard.ApplyPreservesInv | pages/Onboarding.tsx:296-458 | each control the page offers keeps the form within its bounds, keeps any error shown non-empty, and never leaves a submission pending on Success |
| OnboardingWizard.RunPreservesInv | pages/Onboarding.tsx:296-458 | every sequence of user actions keeps that invariant |
| OnboardingWizard.InitialSatisfiesInv | pages/Onboarding.tsx:48-75 | the mounted wizard satisfies the invariant |
| OnboardingWizard.SuccessIsTerminal | pages/Onboarding.tsx:206 | on Success no control is offered, so every later action leaves the state unchanged |
| OnboardingWizard.NoSkippedSteps | pages/Onboarding.tsx:127-147 | any action other than a settling submission moves at most one step and never reaches Success |
| OnboardingWizard.SuccessOnlyOnDelivery | pages/Onboarding.tsx:182-183 | the only way into Success is a response that is ok and reports `success` |
| OnboardingPipeline.SomeEach | pages/Onboarding.tsx:169-171 | the payload's arrays, seen by the handler as possibly-missing entries, hold every element |
| OnboardingPipeline.DecodesToData | api/submit-onboarding.ts:22 | a file read as `marker,data` becomes an attachment holding `data` |
| OnboardingPipeline.PhotoAttachmentsMatch | api/submit-onboarding.ts:29-39 | every photo the wizard sends becomes one attachment, in order, with the photo's data and its own file name (or `photo-N.png` when the name is empty) |
| OnboardingPipeline.AttachmentsMatchForm | pages/Onboarding.tsx:163-172 | when the reader yields data URLs, the payload builds and the email's attachments are exactly the logo then the photos of the form |
| OnboardingPipeline.LogoAttachmentMatches | api/submit-onboarding.ts:20-27 | a form with a logo yields exactly one logo attachment holding the logo's data under its file name (or `logo.png`); a form without one yields none |
| OnboardingPipeline.PayloadAttachments | api/submit-onboarding.ts:18-39 | the handler turns a built payload into the logo (named by its file name, or `logo.png`) followed by the photo attachments |
| OnboardingPipeline.Assemble | api/submit-onboarding.ts:18-39 | the logo part followed by the photo part, each as expected, is the expected attachment list |
| OnboardingPipeline.AllTruthyIndices | api/submit-onboarding.ts:30-31 | when every entry is truthy, every position is kept, in order |
| OnboardingPipeline.SubmitReachesSuccessIffDelivered | pages/Onboarding.tsx:174-186 | end to end, with readable files the wizard reaches Success exactly when the provider delivers the composed email, and shows a provider error's message |
| OnboardingPipeline.EmailIgnoresLinkAndHours | api/submit-onboarding.ts:64 | the email is the same whatever the client enters as transfer link or opening hours |
| Projects.FilterProjects | components/Projects.tsx:14-16 | `Tous` shows the list unchanged; any other filter keeps exactly the projects whose category is the filter or whose tags contain it, every copy of a kept project and none of a dropped one |
| Projects.FilterKeepsOrder | components/Projects.tsx:14-16 | the shown projects are a subsequence of the list, in its order |
| Projects.PillsSelectFilters | components/Projects.tsx:10-16 | the first pill is the initial "Tous" and shows every project, each other pill filters by its label, and the labels are distinct |
| Projects.FilterMatchingAll | components/Projects.tsx:14-16 | a filter every project matches shows the same list as `Tous` |
| Projects.DisplayedTags | components/Projects.tsx:80 | a card shows the first `min(3, n)` tags, in their order |
| SkillsMarquee.HalfLength | Exemple/Skills.tsx:7 | the half length is `n/2` rounded up |
| SkillsMarquee.Marquee | Exemple/Skills.tsx:7-14 | the halves put back together are the skill list, the first is as long as the second or one longer, and each row has four times its half's length, starts with its half and repeats with the half's period |
| SkillsMarquee.RowsLoopSeamlessly | Exemple/Skills.tsx:11-14 | each row is its half four times over, and its first half equals its second half, so a −50% shift lands on an identical frame |
| SkillsMarquee.RepeatFour | Exemple/Skills.tsx:13-14 | four copies are `h + h + h + h`, and their two halves are equal |
| Contact.AccessKey | components/Contact.tsx:15 | the configured access key when it is truthy, the placeholder otherwise, never empty |
| Contact.PostedFields | components/Contact.tsx:14-16 | the posted fields are the form's own, in order, followed by `access_key` |
| Contact.Begin | components/Contact.tsx:11-12 | submitting sets the status to submitting and clears the error message |
| Contact.Settle | components/Contact.tsx:18-37 | success exactly on a reply with `success` whose form reset does not throw; otherwise error with a non-empty message, which is the reply's message or the default, or the connection message on an exception |
| Contact.SendAnother | components/Contact.tsx:91-92 | "send another" returns to idle |
| Contact.ApplyPreservesInv | components/Contact.tsx:100-104 | each offered control keeps "an error message shows exactly in the error status" |
| Contact.RunPreservesInv | components/Contact.tsx:100-104 | every sequence of user actions keeps that invariant |
| Contact.NoSubmitWhileSubmitting | components/Contact.tsx:125 | the submit button is disabled while submitting, so a second submission does nothing |
| Contact.SuccessfulRound | components/Contact.tsx:9-38 | a successful round ends on success with no message, and "send another" then gives the initial state |
| Contact.AcceptedButReportedAsFailure | components/Contact.tsx:26-36 | if the form reset throws, a message the service accepted is reported as a connection failure |
| Theme.InitialTheme | App.tsx:16-23 | the stored theme when it is `dark` or `light`, and light otherwise or without a window |
| Theme.Toggle | App.tsx:37-39 | toggling always changes the theme |
| Theme.Persist | App.tsx:27-35 | after the effect, the `dark` class is present exactly for the dark theme and storage holds the theme's name |
| Theme.StoredNameReadsBack | App.tsx:16-35 | what the effect stores is read back as the same theme on the next load |
| Theme.ToggleTwice | App.tsx:37-39 | toggling twice restores the theme |
| Theme.TogglesPersist | App.tsx:16-39 | after any number of toggles the class and storage agree with the theme, the theme flips once per toggle, and a reload restores it |
| Theme.LoadIsConsistent | App.tsx:16-35 | whatever was stored, the page after load has class and storage in agreement with its theme |
| CookieConsent.LoadTagManager | components/ui/CookieConsent.tsx:22-33 | the loader appends one script when the Tag Manager global is absent and nothing when it exists |
| CookieConsent.TagManagerReady | components/ui/CookieConsent.tsx:27-31 | once the injected script has run, the global exists |
| CookieConsent.Mount | components/ui/CookieConsent.tsx:10-20 | with no (or empty) stored consent the banner shows and nothing loads; with `accepted` the loader runs; otherwise nothing happens |
| CookieConsent.Accept | components/ui/CookieConsent.tsx:35-39 | accepting stores `accepted` and hides the banner; it appends one loader script when the Tag Manager global is absent and none when it exists, and does not create the global itself |
| CookieConsent.Decline | components/ui/CookieConsent.tsx:41-44 | declining stores `declined`, hides the banner and loads nothing |
| CookieConsent.MountDecision | components/ui/CookieConsent.tsx:12-19 | on a fresh page analytics loads exactly when `accepted` is stored, and the banner shows exactly when no consent is stored |
| CookieConsent.LoaderIdempotent | components/ui/CookieConsent.tsx:24 | once the global exists, the loader changes nothing however often it runs |
| CookieConsent.SecondLoadBeforeReady | components/ui/CookieConsent.tsx:24-32 | the guard checks the global, not the scripts already appended: two calls before the script has run append two loaders |
| CookieConsent.ChoiceSurvivesReload | components/ui/CookieConsent.tsx:12-44 | after accepting, the next load runs the loader once without the banner; after declining, it does neither |
| CookieConsent.AcceptWhenLoaded | components/ui/CookieConsent.tsx:24-38 | accepting when analytics already runs appends nothing |

## Left out

- Rendering: the JSX markup, styles, icons, animations and the progress bar's percentage. Only which controls exist and are enabled in a state is modelled.
- The static components have no logic of their own: hero, header, methodology, services, resume, strategic accompaniment, footer, privacy policy, legal and project modals, `components/Skills.tsx`, `pages/Home.tsx`. The same goes for the data in `constants.ts`.
- The animated background: canvas physics and floating point.
- `fileToBase64`: the browser's `FileReader` is the `encode` parameter, and the base64 alphabet is not modelled.
- The email provider, `fetch`, Web3Forms, local storage and `document` are parameters or state fields. Network, timing and concurrency are not modelled. `Promise.all` is modelled by its result only: all values in order, or failure.
- The 1500 ms delay before the cookie banner shows, and the timer's cleanup on unmount. The banner is modelled as shown once the delay has passed.
- The text of the Tag Manager loader script and what `gtm.js` does; only the number of loader scripts appended is tracked.
- `console.error` logging in the handlers.
- Request bodies that are not objects, which make the handlers' destructuring throw. Photo entries that are truthy but not strings are also out. The model's bodies hold strings that may be `null` or missing, an array of possibly missing strings for `photos`, and an optional list of names for `photoNames`.
- The HTML of the onboarding email is modelled as the template's text. A string, `null` or a missing field is rendered as a template renders it; other JSON values (numbers, booleans, arrays) in the interpolated fields are not modelled, except an object for `hours`. Only the properties listed above are proved about it.
- Fields the handlers only test for truthiness or give a `||` or `?.` fallback are optional strings, where `null` and a missing field behave alike.
- `SubmitOnboarding.Handle`: the message of an exception thrown by the provider is modelled as an optional string. An exception raised before the provider is called (the destructuring above) is not modelled.
- `OnboardingForm.SelectLogo` and `OnboardingForm.AddPhotos`: the `alert` is modelled as a `warned` flag on the result.
- The `clientName` field has no input on the page; it is set only from the `client` query parameter.
- `Contact.Settle`: whether `e.currentTarget.reset()` throws is a parameter, because it depends on how the framework treats the event after the `await`.

=== FILE: contact.dfy ===
/**
 The contact form (components/Contact.tsx): a four-state status machine with
 an error message, driven by the form submission to Web3Forms.

 The submission is split in two: `Begin` is what happens synchronously when
 the form is submitted, `Settle` is what happens once the request has
 finished. Whether the request threw, and what the service replied, is a
 parameter (`Outcome`). So is the fate of the `reset()` call made on the form
 after a successful reply: it runs after an `await`, on the event's current
 target, and when it throws the `catch` clause takes over.
 */
module Contact {
  import opened Js

  datatype Status = Idle | Submitting | Success | Error

  datatype State = State(status: Status, errorMessage: string)

  const Initial: State := State(Idle, "")

  /** Shown when the reply carries no message. */
  const DefaultError: string := "Une erreur est survenue lors de l'envoi."

  /** Shown when the request, the JSON decoding or the form reset threw. */
  const ConnectionError: string := "Impossible de contacter le serveur. Veuillez réessayer plus tard."

  /** Used when no access key is configured at build time. */
  const PlaceholderKey: string := "YOUR_ACCESS_KEY_HERE"

  /** The access key sent with the form: the configured key when it is
      truthy, the placeholder otherwise. */
  function AccessKey(configured: Option<string>): (k: string)
    ensures k != ""
    ensures Truthy(configured) ==> k == configured.value
    ensures !Truthy(configured) ==> k == PlaceholderKey
  {
    OrElse(configured, PlaceholderKey)
  }

  /** The fields posted: the form's own fields, in order, followed by
      `access_key`. */
  function PostedFields(form: seq<(string, string)>, configured: Option<string>): (r: seq<(string, string)>)
    ensures |r| == |form| + 1
    ensures r[..|form|] == form
    ensures r[|form|] == ("access_key", AccessKey(configured))
  {
    form + [("access_key", AccessKey(configured))]
  }

  /** How the request ended: it threw (network failure, a body that is not
      JSON), or the service replied with `success` and an optional `message`. */
  datatype Outcome = Threw | Replied(success: bool, message: Option<string>)

  /** Submitting the form. */
  function Begin(s: State): (r: State)
    ensures r.status == Submitting && r.errorMessage == ""
  {
    State(Submitting, "")
  }

  /** The request has finished; `resetThrows` tells whether the form reset
      made after a successful reply threw. */
  function Settle(s: State, outcome: Outcome, resetThrows: bool): (r: State)
    ensures r.status == Success <==> outcome.Replied? && outcome.success && !resetThrows
    ensures r.status == Success ==> r.errorMessage == s.errorMessage
    ensures r.status != Success ==> r.status == Error && r.errorMessage != ""
    ensures outcome.Threw? ==> r.errorMessage == ConnectionError
    ensures outcome.Replied? && !outcome.success && Truthy(outcome.message) ==> r.errorMessage == outcome.message.value
    ensures outcome.Replied? && !outcome.success && !Truthy(outcome.message) ==> r.errorMessage == DefaultError
    ensures outcome.Replied? && outcome.success && resetThrows ==> r == State(Error, ConnectionError)
  {
    match outcome
    case Threw => State(Error, ConnectionError)
    case Replied(success, message) =>
      if success then
        if resetThrows then State(Error, ConnectionError) else s.(status := Success)
      else State(Error, OrElse(message, DefaultError))
  }

  /** "Envoyer un autre message" on the confirmation panel. */
  function SendAnother(s: State): (r: State)
    ensures r.status == Idle && r.errorMessage == s.errorMessage
  {
    s.(status := Idle)
  }

  datatype Action = Submit | Finish(outcome: Outcome, resetThrows: bool) | Another

  /** Which controls exist: the form (and its submit button) is shown unless
      the status is `success`, and the button is disabled while submitting;
      the confirmation panel with its button is shown on `success`; a request
      can only finish while one is in flight. */
  predicate Enabled(s: State, a: Action) {
    match a
    case Submit => s.status != Success && s.status != Submitting
    case Finish(_, _) => s.status == Submitting
    case Another => s.status == Success
  }

  function Apply(s: State, a: Action): State {
    match a
    case Submit => Begin(s)
    case Finish(outcome, resetThrows) => Settle(s, outcome, resetThrows)
    case Another => SendAnother(s)
  }

  function Run(s: State, actions: seq<Action>): State
    decreases |actions|
  {
    if actions == [] then s
    else Run(if Enabled(s, actions[0]) then Apply(s, actions[0]) else s, actions[1..])
  }

  /** The error panel shows a message exactly when the status is `error`. */
  predicate Inv(s: State) {
    s.status == Error <==> s.errorMessage != ""
  }

  lemma ApplyPreservesInv(s: State, a: Action)
    requires Inv(s) && Enabled(s, a)
    ensures Inv(Apply(s, a))
  {
  }

  lemma {:induction false} RunPreservesInv(s: State, actions: seq<Action>)
    requires Inv(s)
    ensures Inv(Run(s, actions))
    decreases |actions|
  {
    if actions != [] {
      var next := if Enabled(s, actions[0]) then Apply(s, actions[0]) else s;
      if Enabled(s, actions[0]) {
        ApplyPreservesInv(s, actions[0]);
      }
      RunPreservesInv(next, actions[1..]);
    }
  }

  /** The submit button cannot start a second request while one is in
      flight. */
  lemma NoSubmitWhileSubmitting(s: State)
    requires s.status == Submitting
    ensures !Enabled(s, Submit)
    ensures Run(s, [Submit]) == s
  {
  }

  /** A full round from the form: submitting and settling with a successful
      reply and a working reset shows the confirmation panel without a
      message, and "send another" returns to a clean form. */
  lemma SuccessfulRound(s: State, message: Option<string>)
    requires Inv(s) && (s.status == Idle || s.status == Error)
    ensures Run(s, [Submit, Finish(Replied(true, message), false)]) == State(Success, "")
    ensures Run(s, [Submit, Finish(Replied(true, message), false), Another]) == Initial
  {
    var done := Finish(Replied(true, message), false);
    var s1 := Begin(s);
    var s2 := Settle(s1, Replied(true, message), false);
    assert Run(s2, []) == s2;
    assert Run(s1, [done]) == Run(s2, []);
    assert Run(s, [Submit, done]) == Run(s1, [done]);
    assert Run(SendAnother(s2), []) == Initial;
    assert Run(s2, [Another]) == Run(SendAnother(s2), []);
    assert Run(s1, [done, Another]) == Run(s2, [Another]);
    assert Run(s, [Submit, done, Another]) == Run(s1, [done, Another]);
  }

  /** If the form reset throws, a message the service accepted is reported to
      the visitor as a connection failure. */
  lemma AcceptedButReportedAsFailure(s: State, message: Option<string>)
    requires Inv(s) && (s.status == Idle || s.status == Error)
    ensures Run(s, [Submit, Finish(Replied(true, message), true)]) == State(Error, ConnectionError)
  {
    var done := Finish(Replied(true, message), true);
    var s1 := Begin(s);
    var s2 := Settle(s1, Replied(true, message), true);
    assert Run(s2, []) == s2;
    assert Run(s1, [done]) == Run(s2, []);
    assert Run(s, [Submit, done]) == Run(s1, [done]);
  }
}

=== FILE: cookie_consent.dfy ===
/**
 The cookie banner (components/ui/CookieConsent.tsx): the decision taken on
 mount from the stored consent, accepting, declining, and the guard that
 keeps the Google Tag Manager loader from running twice.

 The page is reduced to what the component reads and writes: the stored
 consent, whether the banner is visible, whether `window.google_tag_manager`
 exists, and how many loader scripts have been appended to the document head.
 The global appears only once the external `gtm.js` the loader points to has
 run (`TagManagerReady`), which the page does not control.
 */
module CookieConsent {
  import opened Js

  /** The storage key. */
  const Key: string := "cookie-consent"

  /** The container the loader script names. */
  const ContainerId: string := "GTM-K6JS3DFD"

  const Accepted: string := "accepted"
  const Declined: string := "declined"

  datatype Page = Page(stored: Option<string>, visible: bool, tagManager: bool, injected: nat)

  /** `loadGTM`: nothing when the tag manager global exists, otherwise one
      more loader script. */
  function LoadTagManager(p: Page): (r: Page)
    ensures r.stored == p.stored && r.visible == p.visible && r.tagManager == p.tagManager
    ensures p.tagManager ==> r.injected == p.injected
    ensures !p.tagManager ==> r.injected == p.injected + 1
  {
    if p.tagManager then p else p.(injected := p.injected + 1)
  }

  /** The external script has run and defined the global. */
  function TagManagerReady(p: Page): (r: Page)
    requires p.injected > 0
    ensures r.tagManager && r.injected == p.injected
  {
    p.(tagManager := true)
  }

  /** The mount effect. With no consent stored (or an empty one) the banner
      shows, after the delay; with `accepted` the loader runs; with any other
      value nothing happens. */
  function Mount(p: Page): (r: Page)
    ensures r.stored == p.stored && r.tagManager == p.tagManager
    ensures !Truthy(p.stored) ==> r.visible && r.injected == p.injected
    ensures p.stored == Some(Accepted) ==> r == LoadTagManager(p)
    ensures Truthy(p.stored) && p.stored != Some(Accepted) ==> r == p
  {
    if !Truthy(p.stored) then p.(visible := true)
    else if p.stored == Some(Accepted) then LoadTagManager(p)
    else p
  }

  /** "Accepter". */
  function Accept(p: Page): (r: Page)
    ensures r.stored == Some(Accepted) && !r.visible
    ensures r.tagManager == p.tagManager
    ensures r.injected == p.injected + (if p.tagManager then 0 else 1)
  {
    LoadTagManager(p.(stored := Some(Accepted), visible := false))
  }

  /** "Refuser". */
  function Decline(p: Page): (r: Page)
    ensures r.stored == Some(Declined) && !r.visible
    ensures r.tagManager == p.tagManager && r.injected == p.injected
  {
    p.(stored := Some(Declined), visible := false)
  }

  /** A fresh page load with `stored` in storage: banner hidden, no tag
      manager, nothing injected. */
  function Fresh(stored: Option<string>): Page {
    Page(stored, false, false, 0)
  }

  /** Analytics is loaded on a fresh page exactly when consent was accepted,
      and the banner shows exactly when no consent is stored. */
  lemma MountDecision(stored: Option<string>)
    ensures Mount(Fresh(stored)).injected > 0 <==> stored == Some(Accepted)
    ensures Mount(Fresh(stored)).visible <==> !Truthy(stored)
  {
  }

  /** Once the global exists the loader changes nothing, however often it is
      called. */
  lemma LoaderIdempotent(p: Page)
    requires p.tagManager
    ensures LoadTagManager(p) == p
    ensures LoadTagManager(LoadTagManager(p)) == LoadTagManager(p)
  {
  }

  /** The guard looks at the global, not at the scripts already appended: a
      second call before `gtm.js` has run appends a second loader. */
  lemma SecondLoadBeforeReady(p: Page)
    requires !p.tagManager
    ensures LoadTagManager(LoadTagManager(p)).injected == p.injected + 2
  {
  }

  /** After accepting, the next page load runs the loader without showing the
      banner; after declining, it does neither. */
  lemma ChoiceSurvivesReload(p: Page)
    ensures var q := Mount(Fresh(Accept(p).stored)); !q.visible && q.injected == 1
    ensures var q := Mount(Fresh(Decline(p).stored)); !q.visible && q.injected == 0
  {
  }

  /** Accepting on a page where analytics already runs loads nothing more. */
  lemma AcceptWhenLoaded(p: Page)
    requires p.tagManager
    ensures Accept(p).injected == p.injected
  {
  }
}

=== FILE: http.dfy ===
/**
 What the two serverless handlers exchange with the outside: the JSON
 response they write, and the email they hand to the email provider
 (Resend). The provider itself is a parameter of each handler: a function
 from the email it is asked to send to what its `emails.send` call yields.
 */
module Http {
  import opened Js

  /** The `data` object the provider returns for a delivered email; its
      contents are the provider's own and are passed through untouched. */
  datatype ProviderData = ProviderData(id: string)

  /** One attachment of an outgoing email: base64 content and a file name. */
  datatype Attachment = Attachment(content: string, filename: string)

  /** The argument of `resend.emails.send`. */
  datatype Email = Email(
    from: string,
    to: string,
    subject: string,
    replyTo: Field,
    html: string,
    attachments: seq<Attachment>)

  /** How a call to the provider ends: `{ data }`, `{ error }`, or an exception
      (whose `message` may be missing or empty). */
  datatype ProviderOutcome =
    | Delivered(data: ProviderData)
    | ProviderError(message: string)
    | ProviderThrew(reason: Option<string>)

  /** A JSON response body: nothing (`res.end()`), `{ error }`, or
      `{ success: true, data }`. */
  datatype Body = NoBody | ErrorBody(error: string) | SuccessBody(data: ProviderData)

  datatype Response = Response(status: int, body: Body)

  /** What a handler did: the response it wrote and the email it passed to the
      provider, if it called the provider at all. */
  datatype Handled = Handled(response: Response, sent: Option<Email>)

  /** `response.ok` as `fetch` defines it. */
  predicate IsOk(status: int) {
    200 <= status <= 299
  }

  const MethodNotAllowed: Response := Response(405, ErrorBody("Method Not Allowed"))

  /** The reply to a non-POST request: 405, and the provider is never called. */
  const Rejected: Handled := Handled(MethodNotAllowed, None)

  /** The message both handlers use when the provider call throws. */
  const InternalError: string := "Une erreur interne est survenue."

  /** Status mapping shared by both handlers once the provider has been called:
      a provider-reported error is a client problem (400), a delivery is 200,
      an exception is 500. `exposeThrown` says whether the 500 carries the
      exception's own message (when it has a truthy one) or always the fixed
      internal-error message. */
  function ProviderResponse(outcome: ProviderOutcome, exposeThrown: bool): (r: Response)
    ensures r.status == 200 <==> outcome.Delivered?
    ensures r.status == 200 ==> r.body == SuccessBody(outcome.data)
    ensures outcome.ProviderError? ==> r == Response(400, ErrorBody(outcome.message))
    ensures outcome.ProviderThrew? && exposeThrown ==> r == Response(500, ErrorBody(OrElse(outcome.reason, InternalError)))
    ensures outcome.ProviderThrew? && !exposeThrown ==> r == Response(500, ErrorBody(InternalError))
    ensures r.body != NoBody
  {
    match outcome
    case Delivered(data) => Response(200, SuccessBody(data))
    case ProviderError(message) => Response(400, ErrorBody(message))
    case ProviderThrew(reason) =>
      Response(500, ErrorBody(if exposeThrown then OrElse(reason, InternalError) else InternalError))
  }
}

=== FILE: js.dfy ===
/**
 The few JavaScript value and string operations the site's handlers and
 components rely on, stated over Dafny strings (`seq<char>`).

 - `Option<T>` stands for a value that may be `undefined` or `null` where the
   code cannot tell the two apart (truthiness, `||`, `?.`); `Field` keeps them
   apart for the body fields a template interpolates.
 - `Truthy` is JavaScript truthiness of an optional string.
 - `BreakLines` is `s.replace(/\n/g, '<br>')`.
 - `Split` is `s.split(sep)` for a one-character separator, with `Join` as its inverse.
 */
module Js {

  /** A value that is present, or nullish (`undefined` or `null`). */
  datatype Option<+T> = None | Some(value: T)

  /** JavaScript truthiness of a string that may be absent: only a present,
      non-empty string is truthy. */
  predicate Truthy(v: Option<string>) {
    v.Some? && v.value != ""
  }

  /** `v || fallback` for an optional string. */
  function OrElse(v: Option<string>, fallback: string): string {
    if Truthy(v) then v.value else fallback
  }

  /** A string field of a parsed JSON request body: missing (`undefined`),
      explicitly `null`, or a string. */
  datatype Field = Undefined | Null | Str(text: string)

  /** The field where only its truthiness or its `||` fallback matters:
      `null` and `undefined` behave alike there. */
  function AsOption(v: Field): (r: Option<string>)
    ensures r.Some? <==> v.Str?
    ensures v.Str? ==> r.value == v.text
  {
    if v.Str? then Some(v.text) else None
  }

  /** `${v}` inside a template literal: `undefined` and `null` render as their
      own names, a string as itself. */
  function Interpolate(v: Field): (r: string)
    ensures v.Str? ==> r == v.text
    ensures v == Undefined ==> r == "undefined"
    ensures v == Null ==> r == "null"
  {
    match v
    case Undefined => "undefined"
    case Null => "null"
    case Str(text) => text
  }

  /** The two nullish values render differently, so a template tells them apart. */
  lemma NullAndUndefinedDiffer()
    ensures Interpolate(Null) != Interpolate(Undefined)
  {
    assert Interpolate(Null)[0] == 'n' && Interpolate(Undefined)[0] == 'u';
  }

  /** `x` occurs in `s` right after `open` and right before `close`. */
  ghost predicate Encloses(s: string, open: string, x: string, close: string) {
    exists pre: string, post: string :: s == pre + (open + x + close) + post
  }

  /** A concrete split of a string around `open + x + close`. */
  lemma EnclosesAt(pre: string, open: string, x: string, close: string, post: string)
    ensures Encloses(pre + (open + x + close) + post, open, x, close)
  {
  }

  /** Text put before a string keeps what it encloses. */
  lemma EnclosesPrepend(a: string, s: string, open: string, x: string, close: string)
    requires Encloses(s, open, x, close)
    ensures Encloses(a + s, open, x, close)
  {
    var pre: string, post: string :| s == pre + (open + x + close) + post;
    assert a + s == (a + pre) + (open + x + close) + post;
  }

  /** Text put after a string keeps what it encloses. */
  lemma EnclosesAppend(s: string, b: string, open: string, x: string, close: string)
    requires Encloses(s, open, x, close)
    ensures Encloses(s + b, open, x, close)
  {
    var pre: string, post: string :| s == pre + (open + x + close) + post;
    assert s + b == pre + (open + x + close) + (post + b);
  }

  /** Number of occurrences of `c` in `s`. */
  function Count(s: string, c: char): nat
    decreases |s|
  {
    if |s| == 0 then 0 else (if s[0] == c then 1 else 0) + Count(s[1..], c)
  }

  /** A character occurs in `s` exactly when it is counted at least once. */
  lemma {:induction false} CountPositive(s: string, c: char)
    ensures Count(s, c) > 0 <==> c in s
    decreases |s|
  {
    if |s| > 0 {
      CountPositive(s[1..], c);
      assert s == [s[0]] + s[1..];
    }
  }

  // ---------------------------------------------------------------------------
  // s.replace(/\n/g, '<br>')
  // ---------------------------------------------------------------------------

  const Br: string := "<br>"

  /** Every line feed of `s` replaced by `<br>`, everything else kept in order. */
  function BreakLines(s: string): (r: string)
    ensures '\n' !in r
    ensures |r| == |s| + 3 * Count(s, '\n')
    ensures '\n' !in s ==> r == s
    ensures r == "" <==> s == ""
    decreases |s|
  {
    if |s| == 0 then ""
    else
      assert s == [s[0]] + s[1..];
      Piece(s[0]) + BreakLines(s[1..])
  }

  /** What one character of `s` becomes. */
  function Piece(c: char): string {
    if c == '\n' then Br else [c]
  }

  /** Every `<br>` of `r` replaced by a line feed: the partner of `BreakLines`. */
  function UnbreakLines(r: string): string
    decreases |r|
  {
    if |r| == 0 then ""
    else if |r| >= 4 && r[..4] == Br then "\n" + UnbreakLines(r[4..])
    else [r[0]] + UnbreakLines(r[1..])
  }

  /** Replacing line feeds commutes with concatenation. */
  lemma {:induction false} BreakLinesAppend(a: string, b: string)
    ensures BreakLines(a + b) == BreakLines(a) + BreakLines(b)
    decreases |a|
  {
    var ab := a + b;
    if |a| == 0 {
      assert ab == b;
    } else {
      assert ab[0] == a[0];
      assert ab[1..] == a[1..] + b;
      BreakLinesAppend(a[1..], b);
      calc {
        BreakLines(ab);
        Piece(a[0]) + BreakLines(a[1..] + b);
        Piece(a[0]) + (BreakLines(a[1..]) + BreakLines(b));
        BreakLines(a) + BreakLines(b);
      }
    }
  }

  /** Text without `<` (so without a literal `<br>`) survives the replacement:
      turning the `<br>`s back into line feeds gives the original text. */
  lemma {:induction false} BreakLinesRoundTrip(s: string)
    requires '<' !in s
    ensures UnbreakLines(BreakLines(s)) == s
    decreases |s|
  {
    if |s| > 0 {
      var rest := BreakLines(s[1..]);
      BreakLinesRoundTrip(s[1..]);
      if s[0] == '\n' {
        assert BreakLines(s) == Br + rest;
        assert (Br + rest)[..4] == Br;
        assert (Br + rest)[4..] == rest;
      } else {
        assert BreakLines(s) == [s[0]] + rest;
        assert ([s[0]] + rest)[1..] == rest;
        assert |[s[0]] + rest| >= 4 ==> ([s[0]] + rest)[..4][0] == s[0];
      }
    }
  }

  // ---------------------------------------------------------------------------
  // s.split(sep) for a one-character separator
  // ---------------------------------------------------------------------------

  /** The pieces joined back with `sep` between consecutive ones. */
  function Join(parts: seq<string>, sep: char): string
    decreases |parts|
  {
    if |parts| == 0 then ""
    else if |parts| == 1 then parts[0]
    else parts[0] + [sep] + Join(parts[1..], sep)
  }

  lemma JoinCons(c: char, parts: seq<string>, sep: char)
    requires |parts| >= 1
    ensures Join([[c] + parts[0]] + parts[1..], sep) == [c] + Join(parts, sep)
  {
    var ps := [[c] + parts[0]] + parts[1..];
    assert ps[1..] == parts[1..];
  }

  /** The segments of `s` between occurrences of `sep`, as `String.prototype.split`
      returns them: one more segment than there are separators, none holding a
      separator, and joining them back gives `s`. */
  function Split(s: string, sep: char): (parts: seq<string>)
    ensures |parts| == Count(s, sep) + 1
    ensures forall i :: 0 <= i < |parts| ==> sep !in parts[i]
    ensures Join(parts, sep) == s
    decreases |s|
  {
    if |s| == 0 then [""]
    else
      assert s == [s[0]] + s[1..];
      var rest := Split(s[1..], sep);
      if s[0] == sep then
        assert Join([""] + rest, sep) == "" + [sep] + Join(rest, sep);
        SplitStep(s[0], rest, sep)
      else
        JoinCons(s[0], rest, sep);
        SplitStep(s[0], rest, sep)
  }

  /** The segments of `[c] + t`, from the segments `rest` of `t`: a separator
      opens an empty first segment, any other character joins the first one. */
  function SplitStep(c: char, rest: seq<string>, sep: char): seq<string>
    requires |rest| >= 1
  {
    if c == sep then [""] + rest else [[c] + rest[0]] + rest[1..]
  }

  /** A separator-free prefix followed by a separator becomes the first segment. */
  lemma {:induction false} SplitAfterPrefix(p: string, rest: string, sep: char)
    requires sep !in p
    ensures Split(p + [sep] + rest, sep) == [p] + Split(rest, sep)
    decreases |p|
  {
    var s := p + [sep] + rest;
    if |p| == 0 {
      assert s[0] == sep;
      assert s[1..] == rest;
    } else {
      assert s[0] == p[0] && s[0] != sep;
      assert s[1..] == p[1..] + [sep] + rest;
      SplitAfterPrefix(p[1..], rest, sep);
      var r := Split(s[1..], sep);
      assert r == [p[1..]] + Split(rest, sep);
      assert Split(s, sep) == SplitStep(p[0], r, sep);
      assert r[0] == p[1..] && r[1..] == Split(rest, sep);
      assert [p[0]] + p[1..] == p;
    }
  }

  /** A string without the separator is a single segment. */
  lemma SplitNoSeparator(s: string, sep: char)
    requires sep !in s
    ensures Split(s, sep) == [s]
  {
    CountPositive(s, sep);
  }

  /** `Split` undoes `Join` for separator-free pieces. */
  lemma {:induction false} SplitJoin(parts: seq<string>, sep: char)
    requires |parts| >= 1
    requires forall i :: 0 <= i < |parts| ==> sep !in parts[i]
    ensures Split(Join(parts, sep), sep) == parts
    decreases |parts|
  {
    if |parts| == 1 {
      SplitNoSeparator(parts[0], sep);
    } else {
      SplitJoin(parts[1..], sep);
      SplitAfterPrefix(parts[0], Join(parts[1..], sep), sep);
      assert [parts[0]] + parts[1..] == parts;
    }
  }

  // ---------------------------------------------------------------------------
  // Number-to-string conversion in template literals
  // ---------------------------------------------------------------------------

  function Digit(d: nat): char
    requires d < 10
  {
    ('0' as int + d) as char
  }

  function DigitValue(c: char): nat {
    if '0' <= c <= '9' then (c as int - '0' as int) as nat else 0
  }

  /** `${n}` for a natural number: its decimal digits, most significant first. */
  function DecimalString(n: nat): (r: string)
    ensures |r| >= 1
    ensures forall i :: 0 <= i < |r| ==> '0' <= r[i] <= '9'
    decreases n
  {
    if n < 10 then [Digit(n)] else DecimalString(n / 10) + [Digit(n % 10)]
  }

  /** The number a string of decimal digits denotes. */
  function DecimalValue(s: string): nat
    decreases |s|
  {
    if |s| == 0 then 0 else 10 * DecimalValue(s[..|s| - 1]) + DigitValue(s[|s| - 1])
  }

  /** Reading back the digits gives the number. */
  lemma {:induction false} DecimalRoundTrip(n: nat)
    ensures DecimalValue(DecimalString(n)) == n
    decreases n
  {
    var r := DecimalString(n);
    if n >= 10 {
      DecimalRoundTrip(n / 10);
      assert r[..|r| - 1] == DecimalString(n / 10);
    }
  }
}

=== FILE: onboarding_form.dfy ===
/**
 The answers the onboarding wizard (pages/Onboarding.tsx) collects, and the
 edits the page makes to them: text inputs, the weekly opening hours, the
 logo and the photo list.
 */
module OnboardingForm {
  import opened Js
  import opened Seqs

  /** 512 KB: the size bound for the logo and for each photo. */
  const MaxFileSize: nat := 512 * 1024
  /** The photo list never holds more than this many files. */
  const MaxPhotos: nat := 3

  /** A file picked in the browser. Its bytes are only ever read by the
      encoder, so only their number matters to the page. */
  datatype File = File(name: string, bytes: seq<bv8>) {
    function Size(): nat { |bytes| }
  }

  predicate Fits(f: File) {
    f.Size() <= MaxFileSize
  }

  // ---------------------------------------------------------------------------
  // Weekly schedule
  // ---------------------------------------------------------------------------

  datatype Day = Lundi | Mardi | Mercredi | Jeudi | Vendredi | Samedi | Dimanche

  /** The week in calendar order, Monday first, as the schedule table lists it. */
  const Week: seq<Day> := [Lundi, Mardi, Mercredi, Jeudi, Vendredi, Samedi, Dimanche]

  datatype DaySchedule = DaySchedule(amStart: string, amEnd: string, pmStart: string, pmEnd: string, closed: bool)

  const OpenDay: DaySchedule := DaySchedule("09:00", "12:00", "14:00", "18:00", false)
  const ClosedDay: DaySchedule := DaySchedule("09:00", "12:00", "14:00", "18:00", true)

  /** A schedule has an entry for every day of the week. */
  type Schedule = m: map<Day, DaySchedule> | forall d: Day :: d in m
    witness (var m := map[Lundi := OpenDay, Mardi := OpenDay, Mercredi := OpenDay, Jeudi := OpenDay,
                          Vendredi := OpenDay, Samedi := ClosedDay, Dimanche := ClosedDay];
             assert forall d: Day :: d == Lundi || d == Mardi || d == Mercredi || d == Jeudi || d == Vendredi || d == Samedi || d == Dimanche;
             m)

  /** A map with the seven days as keys is a schedule. */
  lemma EveryDayPresent(m: map<Day, DaySchedule>)
    requires Lundi in m && Mardi in m && Mercredi in m && Jeudi in m
    requires Vendredi in m && Samedi in m && Dimanche in m
    ensures forall d: Day :: d in m
  {
    forall d: Day
      ensures d in m
    {
      match d
      case Lundi =>
      case Mardi =>
      case Mercredi =>
      case Jeudi =>
      case Vendredi =>
      case Samedi =>
      case Dimanche =>
    }
  }

  /** The initial hours: 09:00-12:00 and 14:00-18:00, weekends closed. */
  function InitialHours(): (h: Schedule)
    ensures forall d: Day :: h[d].closed <==> d == Samedi || d == Dimanche
    ensures forall d: Day :: h[d].amStart == "09:00" && h[d].amEnd == "12:00"
                          && h[d].pmStart == "14:00" && h[d].pmEnd == "18:00"
    ensures h.Keys == set d | d in Week
  {
    var m := map[Lundi := OpenDay, Mardi := OpenDay, Mercredi := OpenDay, Jeudi := OpenDay,
                 Vendredi := OpenDay, Samedi := ClosedDay, Dimanche := ClosedDay];
    EveryDayPresent(m);
    m
  }

  /** One of the four time inputs of a day row. */
  datatype TimeSlot = AmStart | AmEnd | PmStart | PmEnd

  /** What a day row can report: a time input's new string, or the "closed"
      checkbox's new state. */
  datatype ScheduleEdit = SetTime(slot: TimeSlot, time: string) | SetClosed(closed: bool)

  function TimeAt(d: DaySchedule, slot: TimeSlot): string {
    match slot
    case AmStart => d.amStart
    case AmEnd => d.amEnd
    case PmStart => d.pmStart
    case PmEnd => d.pmEnd
  }

  function ApplyEdit(d: DaySchedule, edit: ScheduleEdit): DaySchedule {
    match edit
    case SetClosed(c) => d.(closed := c)
    case SetTime(AmStart, t) => d.(amStart := t)
    case SetTime(AmEnd, t) => d.(amEnd := t)
    case SetTime(PmStart, t) => d.(pmStart := t)
    case SetTime(PmEnd, t) => d.(pmEnd := t)
  }

  /** `handleScheduleChange(day, field, value)`: exactly that field of that day
      takes the new value; the other fields of the day and the other six days
      are untouched. */
  function ChangeSchedule(h: Schedule, day: Day, edit: ScheduleEdit): (r: Schedule)
    ensures forall d: Day :: d != day ==> r[d] == h[d]
    ensures forall slot: TimeSlot ::
      TimeAt(r[day], slot) == (if edit.SetTime? && edit.slot == slot then edit.time else TimeAt(h[day], slot))
    ensures r[day].closed == (if edit.SetClosed? then edit.closed else h[day].closed)
  {
    h[day := ApplyEdit(h[day], edit)]
  }

  // ---------------------------------------------------------------------------
  // Form data
  // ---------------------------------------------------------------------------

  datatype FormData = FormData(
    clientName: string,
    firstName: string,
    lastName: string,
    companyName: string,
    logo: Option<File>,
    presentation: string,
    services: string,
    photos: seq<File>,
    phone: string,
    email: string,
    address: string,
    hours: Schedule,
    socials: string,
    transferLink: string)

  /** The form as the page creates it; `client` is the `?client=` query
      parameter, if the link carried one. */
  function InitialForm(client: Option<string>): (f: FormData)
    ensures f.clientName == (if Truthy(client) then client.value else "")
    ensures forall g: TextField :: TextOf(f, g) == ""
    ensures f.logo == None && f.photos == []
    ensures f.hours == InitialHours()
    ensures Valid(f)
  {
    FormData(OrElse(client, ""), "", "", "", None, "", "", [], "", "", "", InitialHours(), "", "")
  }

  /** The text inputs of the wizard, by their `name` attribute. */
  datatype TextField =
    | FirstName | LastName | CompanyName
    | Presentation | Services | TransferLink
    | Phone | Email | Address | Socials

  function TextOf(f: FormData, field: TextField): string {
    match field
    case FirstName => f.firstName
    case LastName => f.lastName
    case CompanyName => f.companyName
    case Presentation => f.presentation
    case Services => f.services
    case TransferLink => f.transferLink
    case Phone => f.phone
    case Email => f.email
    case Address => f.address
    case Socials => f.socials
  }

  /** `handleInputChange`: `{ ...prev, [name]: value }`. The named field reads
      back the new value; every other text field, the client name, the files
      and the hours are unchanged. */
  function SetText(f: FormData, field: TextField, value: string): (r: FormData)
    ensures TextOf(r, field) == value
    ensures forall g: TextField :: g != field ==> TextOf(r, g) == TextOf(f, g)
    ensures r.clientName == f.clientName && r.logo == f.logo
    ensures r.photos == f.photos && r.hours == f.hours
    ensures Valid(f) ==> Valid(r)
  {
    match field
    case FirstName => f.(firstName := value)
    case LastName => f.(lastName := value)
    case CompanyName => f.(companyName := value)
    case Presentation => f.(presentation := value)
    case Services => f.(services := value)
    case TransferLink => f.(transferLink := value)
    case Phone => f.(phone := value)
    case Email => f.(email := value)
    case Address => f.(address := value)
    case Socials => f.(socials := value)
  }

  /** Writing a field twice keeps only the last value. */
  lemma SetTextLastWins(f: FormData, field: TextField, v1: string, v2: string)
    ensures SetText(SetText(f, field, v1), field, v2) == SetText(f, field, v2)
  {
  }

  /** `handleScheduleChange` on the whole form. */
  function SetHours(f: FormData, day: Day, edit: ScheduleEdit): (r: FormData)
    ensures r.(hours := f.hours) == f
    ensures r.hours == ChangeSchedule(f.hours, day, edit)
    ensures Valid(f) ==> Valid(r)
  {
    f.(hours := ChangeSchedule(f.hours, day, edit))
  }

  // ---------------------------------------------------------------------------
  // Invariant
  // ---------------------------------------------------------------------------

  /** What the page keeps true of its files: at most `MaxPhotos` photos, and no
      stored file over the size bound. */
  predicate Valid(f: FormData) {
    && |f.photos| <= MaxPhotos
    && (forall i :: 0 <= i < |f.photos| ==> Fits(f.photos[i]))
    && (f.logo.Some? ==> Fits(f.logo.value))
  }

  // ---------------------------------------------------------------------------
  // Files
  // ---------------------------------------------------------------------------

  /** A file selection's effect: the new form, and whether the page alerted the
      user that a file was too large. */
  datatype Picked = Picked(form: FormData, warned: bool)

  /** `handleFileChange(e, 'logo')`: the first selected file replaces the logo
      unless it is over the size bound, in which case the user is warned and
      the logo is kept. Nothing but the logo ever changes. */
  function SelectLogo(f: FormData, files: seq<File>): (r: Picked)
    ensures r.form.(logo := f.logo) == f
    ensures r.warned <==> |files| > 0 && !Fits(files[0])
    ensures r.form.logo != f.logo ==> |files| > 0 && r.form.logo == Some(files[0]) && Fits(files[0])
    ensures |files| > 0 && Fits(files[0]) ==> r.form.logo == Some(files[0])
    ensures Valid(f) ==> Valid(r.form)
  {
    if |files| == 0 then Picked(f, false)
    else if files[0].Size() > MaxFileSize then Picked(f, true)
    else Picked(f.(logo := Some(files[0])), false)
  }

  /** `handleFileChange(e, 'photos')`: files over the size bound are dropped
      (with a warning), the rest are appended, and the list is cut back to
      `MaxPhotos` entries. The old photos stay first, then as many of the
      fitting files, in the order chosen, as there is room for. */
  function AddPhotos(f: FormData, files: seq<File>): (r: Picked)
    ensures |files| == 0 ==> r == Picked(f, false)
    ensures |files| > 0 && |f.photos| <= MaxPhotos ==>
      r.form.photos == f.photos + Take(Filter(Fits, files), MaxPhotos - |f.photos|)
    ensures |files| > 0 && |f.photos| > MaxPhotos ==> r.form.photos == f.photos[..MaxPhotos]
    ensures r.form.(photos := f.photos) == f
    ensures |r.form.photos| <= MaxPhotos || r.form.photos == f.photos
    ensures |f.photos| <= MaxPhotos ==> f.photos <= r.form.photos
    ensures forall i :: 0 <= i < |r.form.photos| ==>
      r.form.photos[i] in f.photos || (r.form.photos[i] in files && Fits(r.form.photos[i]))
    ensures r.warned <==> exists i :: 0 <= i < |files| && !Fits(files[i])
    ensures Valid(f) ==> Valid(r.form)
  {
    if |files| == 0 then Picked(f, false)
    else
      var valid := Filter(Fits, files);
      var warned := |valid| != |files|;
      assert warned <==> exists i :: 0 <= i < |files| && !Fits(files[i]) by {
        FilterCountsKept(files);
      }
      if |f.photos| <= MaxPhotos then
        TakeAfterPrefix(f.photos, valid, MaxPhotos);
        Picked(f.(photos := Take(f.photos + valid, MaxPhotos)), warned)
      else
        Picked(f.(photos := Take(f.photos + valid, MaxPhotos)), warned)
  }

  /** The filter drops something exactly when some file does not fit. */
  lemma {:induction false} FilterCountsKept(files: seq<File>)
    ensures |Filter(Fits, files)| == |files| <==> forall i :: 0 <= i < |files| ==> Fits(files[i])
    decreases |files|
  {
    if |files| > 0 {
      FilterCountsKept(files[1..]);
      assert forall i :: 1 <= i < |files| ==> files[i] == files[1..][i - 1];
      if forall i :: 0 <= i < |files| ==> Fits(files[i]) {
        FilterAll(Fits, files);
      }
    }
  }

  /** Two selections in a row keep the same photos as one selection of all the
      files: the list holds the first `MaxPhotos` acceptable files in the
      order they were chosen. */
  lemma AddPhotosInBatches(f: FormData, a: seq<File>, b: seq<File>)
    requires |a| > 0 && |b| > 0
    ensures AddPhotos(AddPhotos(f, a).form, b).form == AddPhotos(f, a + b).form
  {
    var fa := Filter(Fits, a);
    var fb := Filter(Fits, b);
    var g := AddPhotos(f, a).form;
    assert g.photos == Take(f.photos + fa, MaxPhotos);
    assert AddPhotos(g, b).form.photos == Take(g.photos + fb, MaxPhotos);
    FilterAppend(Fits, a, b);
    assert AddPhotos(f, a + b).form.photos == Take(f.photos + (fa + fb), MaxPhotos);
    TakeAppendTake(f.photos + fa, fb, MaxPhotos);
    AppendAssociative(f.photos, fa, fb);
  }

  /** Once the list is full, further selections change nothing. */
  lemma AddPhotosWhenFull(f: FormData, files: seq<File>)
    requires |f.photos| == MaxPhotos
    ensures AddPhotos(f, files).form == f
  {
  }

  /** `removePhoto(index)`: exactly the photo at `index` goes, the rest keep
      their order; an index outside the list changes nothing. */
  function RemovePhoto(f: FormData, index: int): (r: FormData)
    ensures r.(photos := f.photos) == f
    ensures 0 <= index < |f.photos| ==> r.photos == f.photos[..index] + f.photos[index + 1..]
    ensures !(0 <= index < |f.photos|) ==> r == f
    ensures Valid(f) ==> Valid(r)
  {
    var r := f.(photos := RemoveAt(f.photos, index));
    assert 0 <= index < |f.photos| ==>
      forall i :: 0 <= i < |r.photos| ==> r.photos[i] == (if i < index then f.photos[i] else f.photos[i + 1]);
    r
  }

  /** Adding one acceptable photo to a list with room, then removing it by its
      position, restores the form. */
  lemma AddThenRemovePhoto(f: FormData, file: File)
    requires |f.photos| < MaxPhotos && Fits(file)
    ensures RemovePhoto(AddPhotos(f, [file]).form, |f.photos|) == f
  {
    assert Filter(Fits, [file]) == [file];
    var added := AddPhotos(f, [file]).form;
    assert added.photos == f.photos + [file];
    assert (f.photos + [file])[..|f.photos|] == f.photos;
  }
}

=== FILE: onboarding_pipeline.dfy ===
/**
 The wizard and the submission endpoint together: the payload the page posts
 is what the handler reads, once it has gone through `JSON.stringify` and
 the platform's body parser.
 */
module OnboardingPipeline {
  import opened Js
  import opened Seqs
  import opened Http
  import opened OnboardingForm
  import opened OnboardingWizard
  import SubmitOnboarding

  function SomeEach(xs: seq<string>): (r: seq<Option<string>>)
    ensures |r| == |xs| && forall i :: 0 <= i < |xs| ==> r[i] == Some(xs[i])
  {
    seq(|xs|, i requires 0 <= i < |xs| => Some(xs[i]))
  }

  /** The parsed body the handler sees for a payload: every string is present,
      a missing logo is `null`, an absent logo name is dropped, and the hours
      arrive as an object. */
  function ToBody(p: Payload): SubmitOnboarding.OnboardingBody {
    SubmitOnboarding.OnboardingBody(
      Some(p.clientName), Str(p.firstName), Str(p.lastName), Str(p.companyName),
      p.logo, SubmitOnboarding.PhotoArray(SomeEach(p.photos)), p.logoName, Some(SomeEach(p.photoNames)),
      Some(p.presentation), Some(p.services), Str(p.phone), Str(p.email), Str(p.address),
      SubmitOnboarding.HoursObject, Str(p.socials), Some(p.transferLink))
  }

  /** The endpoint as the page reaches it: a POST whose response comes back. */
  function Endpoint(provider: Email -> ProviderOutcome): Payload -> SubmitOutcome {
    p => Received(SubmitOnboarding.Handle(SubmitOnboarding.Request("POST", ToBody(p)), provider).response)
  }

  /** An encoder producing data URLs `marker,data` with no comma in either part,
      as `FileReader.readAsDataURL` does. */
  ghost predicate DataUrlEncoder(encode: File -> Option<string>, marker: File -> string, data: File -> string) {
    forall x: File :: ',' !in marker(x) && ',' !in data(x) && encode(x) == Some(marker(x) + "," + data(x))
  }

  function ExpectedPhotoName(file: File, index: nat): string {
    if file.name != "" then file.name else "photo-" + DecimalString(index + 1) + ".png"
  }

  lemma DataUrlTruthy(m: string, d: string)
    ensures Truthy(Some(m + "," + d))
  {
    assert |m + "," + d| > 0;
  }

  function LogoOffset(f: FormData): nat {
    if f.logo.Some? then 1 else 0
  }

  /** One attachment per file of the form, carrying the file's data: the logo
      first, named after its file (or `logo.png`), then each photo in order,
      named after its file (or `photo-N.png` for the N-th). */
  ghost predicate AttachmentsAsExpected(f: FormData, data: File -> string, atts: seq<Attachment>) {
    && |atts| == LogoOffset(f) + |f.photos|
    && (f.logo.Some? ==> atts[0] == Attachment(data(f.logo.value),
          if f.logo.value.name != "" then f.logo.value.name else "logo.png"))
    && (forall i :: 0 <= i < |f.photos| ==>
          atts[LogoOffset(f) + i] == Attachment(data(f.photos[i]), ExpectedPhotoName(f.photos[i], i)))
  }

  /** A data URL from the encoder decodes to the file's data. */
  lemma DecodesToData(encode: File -> Option<string>, marker: File -> string, data: File -> string, x: File)
    requires DataUrlEncoder(encode, marker, data)
    ensures encode(x).Some? && Truthy(encode(x))
    ensures SubmitOnboarding.AttachmentContent(encode(x).value) == data(x)
  {
    SubmitOnboarding.ContentRoundTrip(marker(x), data(x));
    DataUrlTruthy(marker(x), data(x));
  }

  /** The photo attachments line up with the wizard's photos. */
  lemma PhotoAttachmentsMatch(files: seq<File>, p: Payload, encode: File -> Option<string>,
                              marker: File -> string, data: File -> string)
    requires DataUrlEncoder(encode, marker, data)
    requires |p.photos| == |files| && |p.photoNames| == |files|
    requires forall i :: 0 <= i < |files| ==>
      p.photos[i] == encode(files[i]).value && p.photoNames[i] == files[i].name
    ensures var atts := SubmitOnboarding.PhotoAttachments(SomeEach(p.photos), Some(SomeEach(p.photoNames)));
      && |atts| == |files|
      && forall i :: 0 <= i < |files| ==> atts[i] == Attachment(data(files[i]), ExpectedPhotoName(files[i], i))
  {
    var entries := SomeEach(p.photos);
    var names := Some(SomeEach(p.photoNames));
    forall i | 0 <= i < |files|
      ensures Truthy(entries[i])
      ensures SubmitOnboarding.AttachmentContent(entries[i].value) == data(files[i])
    {
      DecodesToData(encode, marker, data, files[i]);
    }
    AllTruthyIndices(entries);
    var atts := SubmitOnboarding.PhotoAttachments(entries, names);
    forall i | 0 <= i < |files|
      ensures atts[i] == Attachment(data(files[i]), ExpectedPhotoName(files[i], i))
    {
      assert SubmitOnboarding.TruthyIndices(entries)[i] == i;
      assert SubmitOnboarding.PhotoName(names, i) == ExpectedPhotoName(files[i], i);
    }
  }

  /** Every file the wizard holds reaches the email as one attachment carrying
      exactly its base64 data, in the order and under the names
      `AttachmentsAsExpected` describes. */
  lemma AttachmentsMatchForm(f: FormData, encode: File -> Option<string>, marker: File -> string, data: File -> string)
    requires DataUrlEncoder(encode, marker, data)
    ensures BuildPayload(f, encode).Some?
    ensures AttachmentsAsExpected(f, data, SubmitOnboarding.Attachments(ToBody(BuildPayload(f, encode).value)))
  {
    if f.logo.Some? {
      DecodesToData(encode, marker, data, f.logo.value);
    }
    forall i | 0 <= i < |f.photos|
      ensures encode(f.photos[i]).Some?
    {
      DecodesToData(encode, marker, data, f.photos[i]);
    }
    PayloadAttachments(f, BuildPayload(f, encode).value, encode, marker, data);
  }

  /** The logo attachment: one when the form has a logo, carrying its data
      under its file name (or `logo.png`), none otherwise. */
  lemma LogoAttachmentMatches(f: FormData, p: Payload, encode: File -> Option<string>,
                              marker: File -> string, data: File -> string)
    requires DataUrlEncoder(encode, marker, data)
    requires p.logo.None? <==> f.logo.None?
    requires f.logo.Some? ==> p.logo == encode(f.logo.value) && p.logoName == Some(f.logo.value.name)
    ensures var logoPart := SubmitOnboarding.LogoAttachments(ToBody(p));
      && |logoPart| == LogoOffset(f)
      && (f.logo.Some? ==> logoPart[0] == Attachment(data(f.logo.value),
            if f.logo.value.name != "" then f.logo.value.name else "logo.png"))
  {
    var body := ToBody(p);
    if f.logo.Some? {
      var logo := f.logo.value;
      DecodesToData(encode, marker, data, logo);
      assert body.logo == encode(logo) && Truthy(body.logo);
      assert OrElse(body.logoName, "logo.png") == if logo.name != "" then logo.name else "logo.png";
    }
  }

  /** `AttachmentsMatchForm` for any payload related to the form as
      `BuildPayload` relates them. */
  lemma PayloadAttachments(f: FormData, p: Payload, encode: File -> Option<string>,
                           marker: File -> string, data: File -> string)
    requires DataUrlEncoder(encode, marker, data)
    requires |p.photos| == |f.photos| && |p.photoNames| == |f.photos|
    requires forall i :: 0 <= i < |f.photos| ==>
      p.photos[i] == encode(f.photos[i]).value && p.photoNames[i] == f.photos[i].name
    requires p.logo.None? <==> f.logo.None?
    requires f.logo.Some? ==> p.logo == encode(f.logo.value) && p.logoName == Some(f.logo.value.name)
    ensures AttachmentsAsExpected(f, data, SubmitOnboarding.Attachments(ToBody(p)))
  {
    var body := ToBody(p);
    LogoAttachmentMatches(f, p, encode, marker, data);
    PhotoAttachmentsMatch(f.photos, p, encode, marker, data);
    var logoPart := SubmitOnboarding.LogoAttachments(body);
    var photoPart := SubmitOnboarding.PhotoAttachments(SomeEach(p.photos), Some(SomeEach(p.photoNames)));
    assert SubmitOnboarding.Attachments(body) == logoPart + photoPart;
    Assemble(f, data, logoPart, photoPart);
  }

  /** The logo part followed by the photo part is the expected list. */
  lemma Assemble(f: FormData, data: File -> string, logoPart: seq<Attachment>, photoPart: seq<Attachment>)
    requires |logoPart| == LogoOffset(f)
    requires f.logo.Some? ==> logoPart[0] == Attachment(data(f.logo.value),
      if f.logo.value.name != "" then f.logo.value.name else "logo.png")
    requires |photoPart| == |f.photos|
    requires forall i :: 0 <= i < |f.photos| ==> photoPart[i] == Attachment(data(f.photos[i]), ExpectedPhotoName(f.photos[i], i))
    ensures AttachmentsAsExpected(f, data, logoPart + photoPart)
  {
    var atts := logoPart + photoPart;
    forall i | 0 <= i < |f.photos|
      ensures atts[LogoOffset(f) + i] == Attachment(data(f.photos[i]), ExpectedPhotoName(f.photos[i], i))
    {
      AppendIndex(logoPart, photoPart, i);
    }
  }

  lemma AppendIndex<T>(a: seq<T>, b: seq<T>, i: int)
    requires 0 <= i < |b|
    ensures (a + b)[|a| + i] == b[i]
  {
  }

  /** When every entry is truthy, the truthy indices are 0, 1, 2, ... */
  lemma {:induction false} AllTruthyIndices(entries: seq<Option<string>>)
    requires forall i :: 0 <= i < |entries| ==> Truthy(entries[i])
    ensures |SubmitOnboarding.TruthyIndices(entries)| == |entries|
    ensures forall i :: 0 <= i < |entries| ==> SubmitOnboarding.TruthyIndices(entries)[i] == i
    decreases |entries|
  {
    if |entries| > 0 {
      var n := |entries| - 1;
      var front := entries[..n];
      assert forall i :: 0 <= i < n ==> front[i] == entries[i];
      AllTruthyIndices(front);
      var ix := SubmitOnboarding.TruthyIndices(front);
      assert SubmitOnboarding.TruthyIndices(entries) == ix + [n];
    }
  }

  /** End to end: with a readable form, the wizard reaches Success exactly when
      the provider delivers the email; a provider error's message is what the
      page shows. */
  lemma SubmitReachesSuccessIffDelivered(w: Wizard, encode: File -> Option<string>, provider: Email -> ProviderOutcome)
    requires w.step == Contact
    requires BuildPayload(w.form, encode).Some?
    ensures var email := SubmitOnboarding.Compose(ToBody(BuildPayload(w.form, encode).value));
      && (HandleSubmit(w, encode, Endpoint(provider)).step == Success <==> provider(email).Delivered?)
      && (provider(email).ProviderError? && provider(email).message != "" ==>
            HandleSubmit(w, encode, Endpoint(provider)).error == Some(provider(email).message))
  {
    var p := BuildPayload(w.form, encode).value;
    var email := SubmitOnboarding.Compose(ToBody(p));
    var h := SubmitOnboarding.Handle(SubmitOnboarding.Request("POST", ToBody(p)), provider);
    assert Endpoint(provider)(p) == Received(h.response);
  }

  /** The transfer link and the opening hours the client enters never reach the
      email: the handler does not read the link, and renders the hours object
      as `[object Object]`. */
  lemma EmailIgnoresLinkAndHours(f: FormData, encode: File -> Option<string>, link: string, day: Day, edit: ScheduleEdit)
    requires BuildPayload(f, encode).Some?
    ensures var g := SetHours(SetText(f, TransferLink, link), day, edit);
      SubmitOnboarding.Compose(ToBody(BuildPayload(g, encode).value))
      == SubmitOnboarding.Compose(ToBody(BuildPayload(f, encode).value))
  {
    var g := SetHours(SetText(f, TransferLink, link), day, edit);
    assert g.logo == f.logo && g.photos == f.photos;
    var p := BuildPayload(f, encode).value;
    var q := BuildPayload(g, encode).value;
    assert q == p.(transferLink := link, hours := g.hours);
    assert ToBody(q) == ToBody(p).(transferLink := Some(link));
    SubmitOnboarding.ComposeIgnoresTransferLink(ToBody(p), Some(link));
  }
}

=== FILE: onboarding_wizard.dfy ===
/**
 The onboarding wizard's controller (pages/Onboarding.tsx): five steps, a
 gate on the first one, forward and backward moves that clear the error,
 and a two-phase submission (start, then settle with what the server said).

 The page's controls are modelled as `Action`s, `Enabled` says which ones the
 page renders (and does not disable) in a given state, and `Run` plays a
 sequence of user actions, ignoring those whose control is not there.
 */
module OnboardingWizard {
  import opened Js
  import opened Http
  import opened OnboardingForm

  datatype Step = Validation | Design | Content | Contact | Success

  /** Position of a step in the wizard's linear order. */
  function Index(s: Step): nat {
    match s
    case Validation => 0
    case Design => 1
    case Content => 2
    case Contact => 3
    case Success => 4
  }

  datatype Wizard = Wizard(step: Step, error: Option<string>, submitting: bool, form: FormData)

  /** The wizard as the page mounts it. */
  function Initial(client: Option<string>): (w: Wizard)
    ensures w.step == Validation && w.error == None && !w.submitting
    ensures w.form == InitialForm(client) && !RequiredFilled(w.form)
  {
    Wizard(Validation, None, false, InitialForm(client))
  }

  const RequiredMessage: string := "Veuillez remplir tous les champs obligatoires."
  const DefaultSubmitError: string := "Une erreur est survenue."
  const ConnectionError: string := "Erreur de connexion au serveur."

  /** The first step's gate: first name, last name and company name must not be
      the empty string. A value of spaces only passes. */
  predicate RequiredFilled(f: FormData) {
    f.firstName != "" && f.lastName != "" && f.companyName != ""
  }

  /** `nextStep`: clears the error; on the first step, refuses to move (and sets
      the required-fields message) unless the gate passes; otherwise moves one
      step forward, except from Contact (which submits instead) and Success. */
  function NextStep(w: Wizard): (r: Wizard)
    ensures r.form == w.form && r.submitting == w.submitting
    ensures r.error == (if w.step == Validation && !RequiredFilled(w.form) then Some(RequiredMessage) else None)
    ensures r.step == w.step <==>
      w.step == Contact || w.step == Success || (w.step == Validation && !RequiredFilled(w.form))
    ensures r.step != w.step ==> Index(r.step) == Index(w.step) + 1
  {
    match w.step
    case Validation =>
      if !RequiredFilled(w.form) then w.(error := Some(RequiredMessage))
      else w.(error := None, step := Design)
    case Design => w.(error := None, step := Content)
    case Content => w.(error := None, step := Contact)
    case _ => w.(error := None)
  }

  /** `prevStep`: clears the error and moves one step back from Design, Content
      or Contact; from Validation and Success it only clears the error. */
  function PrevStep(w: Wizard): (r: Wizard)
    ensures r.form == w.form && r.submitting == w.submitting && r.error == None
    ensures r.step == w.step <==> w.step == Validation || w.step == Success
    ensures r.step != w.step ==> Index(r.step) + 1 == Index(w.step)
  {
    match w.step
    case Design => w.(error := None, step := Validation)
    case Content => w.(error := None, step := Design)
    case Contact => w.(error := None, step := Content)
    case _ => w.(error := None)
  }

  /** Going forward then back returns to the same step, with the error cleared. */
  lemma BackUndoesNext(w: Wizard)
    requires w.step == Design || w.step == Content || (w.step == Validation && RequiredFilled(w.form))
    ensures PrevStep(NextStep(w)) == w.(error := None)
  {
  }

  /** Going back then forward returns to the same step, with the error cleared
      (leaving Design for Validation and coming back needs the gate to pass). */
  lemma NextUndoesBack(w: Wizard)
    requires w.step == Content || w.step == Contact || (w.step == Design && RequiredFilled(w.form))
    ensures NextStep(PrevStep(w)) == w.(error := None)
  {
  }

  // ---------------------------------------------------------------------------
  // Submission
  // ---------------------------------------------------------------------------

  /** The JSON body the page posts: the form's text fields and hours, the
      encoded logo (`null` when there is none) and photos, the logo's file name
      and the photos' file names. */
  datatype Payload = Payload(
    clientName: string,
    firstName: string,
    lastName: string,
    companyName: string,
    logo: Option<string>,
    photos: seq<string>,
    logoName: Option<string>,
    photoNames: seq<string>,
    presentation: string,
    services: string,
    phone: string,
    email: string,
    address: string,
    hours: Schedule,
    socials: string,
    transferLink: string)

  /** `Promise.all(files.map(fileToBase64))`: every file encoded, results in the
      files' order; if any read fails the whole batch fails. */
  function EncodeAll(files: seq<File>, encode: File -> Option<string>): (r: Option<seq<string>>)
    ensures r.Some? <==> forall i :: 0 <= i < |files| ==> encode(files[i]).Some?
    ensures r.Some? ==> |r.value| == |files|
    ensures r.Some? ==> forall i :: 0 <= i < |files| ==> r.value[i] == encode(files[i]).value
    decreases |files|
  {
    if |files| == 0 then Some([])
    else
      var first := encode(files[0]);
      var rest := EncodeAll(files[1..], encode);
      assert forall i :: 1 <= i < |files| ==> files[i] == files[1..][i - 1];
      if first.None? || rest.None? then None else Some([first.value] + rest.value)
  }

  function FileName(f: File): string {
    f.name
  }

  /** The payload built from the form, or `None` when a file could not be read.
      `photoNames` runs parallel to `photos`, and `logo`/`logoName` are absent
      exactly when no logo was chosen. */
  function BuildPayload(f: FormData, encode: File -> Option<string>): (r: Option<Payload>)
    ensures r.None? <==>
      (f.logo.Some? && encode(f.logo.value).None?)
      || exists i :: 0 <= i < |f.photos| && encode(f.photos[i]).None?
    ensures r.Some? ==>
      && |r.value.photos| == |f.photos| && |r.value.photoNames| == |f.photos|
      && (forall i :: 0 <= i < |f.photos| ==>
            r.value.photos[i] == encode(f.photos[i]).value && r.value.photoNames[i] == f.photos[i].name)
    ensures r.Some? ==>
      && (r.value.logo.None? <==> f.logo.None?)
      && (r.value.logoName.None? <==> f.logo.None?)
      && (f.logo.Some? ==> r.value.logo == encode(f.logo.value) && r.value.logoName == Some(f.logo.value.name))
    ensures r.Some? ==>
      && r.value.firstName == f.firstName && r.value.lastName == f.lastName
      && r.value.companyName == f.companyName && r.value.clientName == f.clientName
      && r.value.hours == f.hours && r.value.transferLink == f.transferLink
    ensures r.Some? ==>
      && r.value.presentation == f.presentation && r.value.services == f.services
      && r.value.phone == f.phone && r.value.email == f.email
      && r.value.address == f.address && r.value.socials == f.socials
  {
    var logo := if f.logo.Some? then encode(f.logo.value) else None;
    if f.logo.Some? && logo.None? then None
    else
      var photos := EncodeAll(f.photos, encode);
      if photos.None? then None
      else
        var names := seq(|f.photos|, i requires 0 <= i < |f.photos| => FileName(f.photos[i]));
        Some(Payload(
          f.clientName, f.firstName, f.lastName, f.companyName,
          logo, photos.value,
          if f.logo.Some? then Some(f.logo.value.name) else None,
          names,
          f.presentation, f.services, f.phone, f.email, f.address, f.hours, f.socials, f.transferLink))
  }

  /** How the request ended for the page: an exception (a file could not be
      read, `fetch` failed), or a response from the endpoint. */
  datatype SubmitOutcome = Threw | Received(response: Response)

  /** The first half of `handleSubmit`: mark the submission as running and
      clear the error. */
  function BeginSubmit(w: Wizard): (r: Wizard)
    ensures r.submitting && r.error == None && r.step == w.step && r.form == w.form
  {
    w.(submitting := true, error := None)
  }

  /** `data.success` of a response body as JSON. */
  predicate ReportsSuccess(body: Body) {
    body.SuccessBody?
  }

  /** The second half of `handleSubmit`: `response.ok && data.success` moves to
      Success; any other response sets `data.error` or a default; an exception
      (including a body that is not JSON) sets the connection message. The
      running flag is cleared either way. */
  function SettleSubmit(w: Wizard, outcome: SubmitOutcome): (r: Wizard)
    ensures !r.submitting && r.form == w.form
    ensures r.step == Success <==>
      w.step == Success || (outcome.Received? && IsOk(outcome.response.status) && ReportsSuccess(outcome.response.body))
    ensures r.step != Success ==> r.step == w.step && r.error.Some? && r.error.value != ""
    ensures outcome.Threw? || (outcome.Received? && outcome.response.body.NoBody?) ==>
      r.step == w.step && r.error == Some(ConnectionError)
    ensures outcome.Received? && outcome.response.body.ErrorBody? && outcome.response.body.error != "" ==>
      r.step == w.step && r.error == Some(outcome.response.body.error)
    ensures outcome.Received? && (outcome.response.body == ErrorBody("")
                                  || (outcome.response.body.SuccessBody? && !IsOk(outcome.response.status))) ==>
      r.step == w.step && r.error == Some(DefaultSubmitError)
  {
    match outcome
    case Threw => w.(submitting := false, error := Some(ConnectionError))
    case Received(response) =>
      match response.body
      case NoBody => w.(submitting := false, error := Some(ConnectionError))
      case SuccessBody(_) =>
        if IsOk(response.status) then w.(submitting := false, step := Success)
        else w.(submitting := false, error := Some(DefaultSubmitError))
      case ErrorBody(e) => w.(submitting := false, error := Some(OrElse(Some(e), DefaultSubmitError)))
  }

  /** `handleSubmit` as one call: encode the files, post the payload to
      `server`, and settle with its answer. */
  function HandleSubmit(w: Wizard, encode: File -> Option<string>, server: Payload -> SubmitOutcome): (r: Wizard)
    ensures !r.submitting && r.form == w.form
    ensures BuildPayload(w.form, encode).None? ==> r.step == w.step && r.error == Some(ConnectionError)
    ensures r.step == Success <==>
      w.step == Success ||
      (BuildPayload(w.form, encode).Some? &&
       var outcome := server(BuildPayload(w.form, encode).value);
       outcome.Received? && IsOk(outcome.response.status) && ReportsSuccess(outcome.response.body))
  {
    var started := BeginSubmit(w);
    match BuildPayload(w.form, encode)
    case None => SettleSubmit(started, Threw)
    case Some(payload) => SettleSubmit(started, server(payload))
  }

  // ---------------------------------------------------------------------------
  // The page's controls
  // ---------------------------------------------------------------------------

  datatype Action =
    | Type(field: TextField, value: string)
    | ChooseLogo(files: seq<File>)
    | ChoosePhotos(files: seq<File>)
    | DeletePhoto(index: int)
    | EditHours(day: Day, edit: ScheduleEdit)
    | Next
    | Back
    | Submit
    | Settle(outcome: SubmitOutcome)

  /** The step whose panel renders a text input. */
  function FieldStep(field: TextField): Step {
    match field
    case FirstName => Validation
    case LastName => Validation
    case CompanyName => Validation
    case Presentation => Content
    case Services => Content
    case TransferLink => Content
    case Phone => Contact
    case Email => Contact
    case Address => Contact
    case Socials => Contact
  }

  /** Which controls exist (and are not disabled) in a state. On Success only
      the thank-you screen renders, so no control does; a pending submission
      settles whatever the user does meanwhile. */
  predicate Enabled(w: Wizard, a: Action) {
    match a
    case Type(field, _) => w.step == FieldStep(field)
    case ChooseLogo(_) => w.step == Design
    case ChoosePhotos(_) => w.step == Content && |w.form.photos| < MaxPhotos
    case DeletePhoto(i) => w.step == Content && 0 <= i < |w.form.photos|
    case EditHours(day, edit) => w.step == Contact && (edit.SetTime? ==> !w.form.hours[day].closed)
    case Next => w.step == Validation || w.step == Design || w.step == Content
    case Back => w.step == Design || w.step == Content || w.step == Contact
    case Submit => w.step == Contact && !w.submitting
    case Settle(_) => w.submitting
  }

  function Apply(w: Wizard, a: Action): Wizard {
    match a
    case Type(field, value) => w.(form := SetText(w.form, field, value))
    case ChooseLogo(files) => w.(form := SelectLogo(w.form, files).form)
    case ChoosePhotos(files) => w.(form := AddPhotos(w.form, files).form)
    case DeletePhoto(i) => w.(form := RemovePhoto(w.form, i))
    case EditHours(day, edit) => w.(form := SetHours(w.form, day, edit))
    case Next => NextStep(w)
    case Back => PrevStep(w)
    case Submit => BeginSubmit(w)
    case Settle(outcome) => SettleSubmit(w, outcome)
  }

  /** A sequence of user actions; one whose control is absent does nothing. */
  function Run(w: Wizard, actions: seq<Action>): Wizard
    decreases |actions|
  {
    if |actions| == 0 then w
    else Run(if Enabled(w, actions[0]) then Apply(w, actions[0]) else w, actions[1..])
  }

  /** What holds in every state the page can reach: the form is valid, an error
      on display is never empty, and nothing is pending once on Success. */
  predicate Inv(w: Wizard) {
    && Valid(w.form)
    && (w.error.Some? ==> w.error.value != "")
    && (w.step == Success ==> !w.submitting)
  }

  /** Every enabled action keeps the invariant. */
  lemma ApplyPreservesInv(w: Wizard, a: Action)
    requires Inv(w) && Enabled(w, a)
    ensures Inv(Apply(w, a))
  {
  }

  /** Every state reached from the mounted page satisfies the invariant. */
  lemma {:induction false} RunPreservesInv(w: Wizard, actions: seq<Action>)
    requires Inv(w)
    ensures Inv(Run(w, actions))
    decreases |actions|
  {
    if |actions| > 0 {
      var next := if Enabled(w, actions[0]) then Apply(w, actions[0]) else w;
      if Enabled(w, actions[0]) {
        ApplyPreservesInv(w, actions[0]);
      }
      RunPreservesInv(next, actions[1..]);
    }
  }

  lemma InitialSatisfiesInv(client: Option<string>)
    ensures Inv(Initial(client))
  {
  }

  /** Success is terminal: no control is enabled there, so every later action
      leaves the state as it is. */
  lemma {:induction false} SuccessIsTerminal(w: Wizard, actions: seq<Action>)
    requires Inv(w) && w.step == Success
    ensures forall a :: !Enabled(w, a)
    ensures Run(w, actions) == w
    decreases |actions|
  {
    if |actions| > 0 {
      assert !Enabled(w, actions[0]);
      SuccessIsTerminal(w, actions[1..]);
    }
  }

  /** Apart from a settling submission, an enabled action moves at most one
      step along the order and never reaches Success: no step is skipped. */
  lemma NoSkippedSteps(w: Wizard, a: Action)
    requires Enabled(w, a) && !a.Settle?
    ensures var r := Apply(w, a);
      r.step == w.step || Index(r.step) == Index(w.step) + 1 || Index(r.step) + 1 == Index(w.step)
    ensures Apply(w, a).step != Success
  {
  }

  /** The only way into Success is a submission whose response is ok and says
      `success`. */
  lemma SuccessOnlyOnDelivery(w: Wizard, a: Action)
    requires w.step != Success && Apply(w, a).step == Success
    ensures a.Settle? && a.outcome.Received?
    ensures IsOk(a.outcome.response.status) && a.outcome.response.body.SuccessBody?
  {
  }
}

=== FILE: projects.dfy ===
/**
 The project gallery (components/Projects.tsx): a category filter over the
 project list, and the three-tag cap on each card. The `Project` record is
 the shape types.ts declares.
 */
module Projects {
  import opened Js
  import opened Seqs

  datatype Project = Project(
    id: string,
    title: string,
    category: string,
    description: string,
    fullDescription: string,
    image: string,
    tags: seq<string>,
    demoUrl: string,
    githubUrl: Option<string>,
    featured: Option<bool>)

  /** The filter that shows everything. */
  const All: string := "Tous"

  /** The filter pills, in display order. */
  const Categories: seq<string> := ["Tous", "WordPress", "React", "Electron", "Backend"]

  /** `p.category === filter || p.tags.includes(filter)`. */
  predicate Matches(filter: string, p: Project) {
    p.category == filter || filter in p.tags
  }

  /** `filteredProjects`. */
  function FilterProjects(projects: seq<Project>, filter: string): (r: seq<Project>)
    ensures filter == All ==> r == projects
    ensures filter != All ==> forall i :: 0 <= i < |r| ==> Matches(filter, r[i]) && r[i] in projects
    ensures filter != All ==> forall i :: 0 <= i < |projects| && Matches(filter, projects[i]) ==> projects[i] in r
    ensures |r| <= |projects|
    ensures filter != All ==>
      forall p :: multiset(r)[p] == if Matches(filter, p) then multiset(projects)[p] else 0
  {
    FilterCounts(p => Matches(filter, p), projects);
    if filter == All then projects else Filter(p => Matches(filter, p), projects)
  }

  /** Whatever the filter, the cards shown are projects of the list, in the
      list's order. */
  lemma FilterKeepsOrder(projects: seq<Project>, filter: string)
    ensures IsSubsequence(FilterProjects(projects, filter), projects)
  {
    if filter == All {
      SubsequenceReflexive(projects);
    } else {
      FilterIsSubsequence(p => Matches(filter, p), projects);
    }
  }

  /** A filter every project matches shows the same list as "Tous". */
  lemma FilterMatchingAll(projects: seq<Project>, filter: string)
    requires forall i :: 0 <= i < |projects| ==> Matches(filter, projects[i])
    ensures FilterProjects(projects, filter) == FilterProjects(projects, All)
  {
    if filter != All {
      FilterAll(p => Matches(filter, p), projects);
    }
  }

  /** The pills the page offers: the first one is the initial "Tous" and
      shows every project, every other one filters, and no two share a
      label, so each button's `key` is unique. */
  lemma PillsSelectFilters(projects: seq<Project>)
    ensures Categories[0] == All && FilterProjects(projects, Categories[0]) == projects
    ensures forall i :: 1 <= i < |Categories| ==>
      FilterProjects(projects, Categories[i]) == Filter(p => Matches(Categories[i], p), projects)
    ensures forall i, j :: 0 <= i < j < |Categories| ==> Categories[i] != Categories[j]
  {
  }

  /** `project.tags.slice(0, 3)`: the first three tags, in order. */
  function DisplayedTags(p: Project): (r: seq<string>)
    ensures |r| == Min(3, |p.tags|)
    ensures r <= p.tags
  {
    Take(p.tags, 3)
  }
}

=== FILE: send_email.dfy ===
/**
 The contact-message endpoint (api/send-email.ts): answers a CORS pre-flight
 (OPTIONS) with an empty 200, rejects every other method but POST with 405,
 requires a truthy `name`, `email` and `message` before it calls the email
 provider, and maps the provider's answer to an HTTP status.
 */
module SendEmail {
  import opened Js
  import opened Http

  datatype ContactBody = ContactBody(
    name: Option<string>,
    email: Option<string>,
    subject: Field,
    message: Option<string>)

  datatype Request = Request(verb: string, body: ContactBody)

  const From: string := "PORTFOLIO Contact <onboarding@resend.dev>"
  const Owner: string := "julienldev@gmail.com"
  const MissingFields: string := "Des champs obligatoires sont manquants."

  /** The three fields the handler insists on; `subject` is optional. */
  predicate HasRequiredFields(body: ContactBody) {
    Truthy(body.name) && Truthy(body.email) && Truthy(body.message)
  }

  /** The message's fixed framing: its heading, and the styled block that
      holds the message text. */
  const HtmlHeading: string := "\n        <h2>Nouveau message de contact</h2>"
  const MessageBlock: string :=
    "\n        <div style=\"margin-top: 20px; padding: 15px; border-left: 4px solid #3b82f6; background-color: #f8fafc;\">"
    + "\n          <strong>Message :</strong><br>"
    + "\n          "

  /** The template's line break and indentation before each line. */
  const Indent: string := "\n        "
  const NameOpen: string := "<p><strong>Nom :</strong> "
  const EmailOpen: string := "<p><strong>Email :</strong> "
  const SubjectOpen: string := "<p><strong>Sujet :</strong> "

  /** The part of the HTML message that precedes the message text: the
      sender's name, email and subject, each in its own paragraph. */
  function HtmlHead(body: ContactBody): string
    requires HasRequiredFields(body)
  {
    HtmlHeading + Indent
    + (NameOpen + body.name.value + "</p>")
    + (Indent + (EmailOpen + body.email.value + "</p>")
       + (Indent + (SubjectOpen + Interpolate(body.subject) + "</p>") + MessageBlock))
  }

  const HtmlTail: string := "\n        </div>\n      "

  /** The subject line starts with this tag, followed by the sender's name. */
  const SubjectTag: string := "[NOUVEAU PROJET] - "

  /** The email handed to the provider for a complete message: the message
      text appears with its line feeds turned into `<br>` and nothing else
      changed (in particular, nothing is escaped). */
  function Compose(body: ContactBody): (e: Email)
    requires HasRequiredFields(body)
    ensures e.from == From
    ensures e.subject == SubjectTag + body.name.value
    ensures e.replyTo == Str(body.email.value) && e.to == Owner && e.attachments == []
    ensures e.html == HtmlHead(body) + BreakLines(body.message.value) + HtmlTail
  {
    Email(From, Owner, SubjectTag + body.name.value, Str(body.email.value),
          HtmlHead(body) + BreakLines(body.message.value) + HtmlTail, [])
  }

  /** Where the sender's answers appear in the message: the name, the email
      and the subject (as a template renders it, so a missing one reads
      "undefined"), each in its labelled paragraph. */
  lemma HtmlShowsSender(body: ContactBody)
    requires HasRequiredFields(body)
    ensures Encloses(Compose(body).html, NameOpen, body.name.value, "</p>")
    ensures Encloses(Compose(body).html, EmailOpen, body.email.value, "</p>")
    ensures Encloses(Compose(body).html, SubjectOpen, Interpolate(body.subject), "</p>")
  {
    HeadShowsSender(body);
    var head := HtmlHead(body);
    var text := BreakLines(body.message.value);
    ShownInMessage(head, text, NameOpen, body.name.value, "</p>");
    ShownInMessage(head, text, EmailOpen, body.email.value, "</p>");
    ShownInMessage(head, text, SubjectOpen, Interpolate(body.subject), "</p>");
  }

  /** What the head encloses, the whole message encloses. */
  lemma ShownInMessage(head: string, text: string, open: string, x: string, close: string)
    requires Encloses(head, open, x, close)
    ensures Encloses(head + text + HtmlTail, open, x, close)
  {
    EnclosesAppend(head, text, open, x, close);
    EnclosesAppend(head + text, HtmlTail, open, x, close);
  }

  /** `HtmlShowsSender` for the head of the message. */
  lemma HeadShowsSender(body: ContactBody)
    requires HasRequiredFields(body)
    ensures Encloses(HtmlHead(body), NameOpen, body.name.value, "</p>")
    ensures Encloses(HtmlHead(body), EmailOpen, body.email.value, "</p>")
    ensures Encloses(HtmlHead(body), SubjectOpen, Interpolate(body.subject), "</p>")
  {
    var name := body.name.value;
    var email := body.email.value;
    var subject := Interpolate(body.subject);
    var r2 := Indent + (SubjectOpen + subject + "</p>") + MessageBlock;
    var r1 := Indent + (EmailOpen + email + "</p>") + r2;
    var front := HtmlHeading + Indent + (NameOpen + name + "</p>");
    EnclosesAt(HtmlHeading + Indent, NameOpen, name, "</p>", r1);
    EnclosesAt(Indent, EmailOpen, email, "</p>", r2);
    EnclosesPrepend(front, r1, EmailOpen, email, "</p>");
    EnclosesAt(Indent, SubjectOpen, subject, "</p>", MessageBlock);
    EnclosesPrepend(Indent + (EmailOpen + email + "</p>"), r2, SubjectOpen, subject, "</p>");
    EnclosesPrepend(front, r1, SubjectOpen, subject, "</p>");
  }

  /** A POST request's handling: the required-field check, then the call to
      the provider and the mapping of its answer. */
  function Send(body: ContactBody, provider: Email -> ProviderOutcome): (h: Handled)
    ensures !HasRequiredFields(body) ==> h == Handled(Response(400, ErrorBody(MissingFields)), None)
    ensures h.sent.Some? <==> HasRequiredFields(body)
    ensures HasRequiredFields(body) ==> h.sent == Some(Compose(body))
    ensures h.sent.Some? ==>
      var outcome := provider(h.sent.value);
      && (outcome.Delivered? ==> h.response == Response(200, SuccessBody(outcome.data)))
      && (outcome.ProviderError? ==> h.response == Response(400, ErrorBody(outcome.message)))
      && (outcome.ProviderThrew? ==> h.response == Response(500, ErrorBody(InternalError)))
  {
    if !HasRequiredFields(body) then Handled(Response(400, ErrorBody(MissingFields)), None)
    else
      var email := Compose(body);
      Handled(ProviderResponse(provider(email), false), Some(email))
  }

  /** The request handler, with the email provider as a parameter: only a POST
      can reach the provider, and a pre-flight never does. */
  function Handle(req: Request, provider: Email -> ProviderOutcome): (h: Handled)
    ensures req.verb == "OPTIONS" ==> h == Handled(Response(200, NoBody), None)
    ensures req.verb != "OPTIONS" && req.verb != "POST" ==> h == Rejected
    ensures req.verb == "POST" ==> h == Send(req.body, provider)
    ensures h.sent.Some? ==> req.verb == "POST"
  {
    assert "OPTIONS"[0] != "POST"[0];
    if req.verb == "OPTIONS" then Handled(Response(200, NoBody), None)
    else if req.verb != "POST" then Rejected
    else Send(req.body, provider)
  }

  /** A message without an email address is refused with 400 and the provider
      is never called, whatever it would have answered. */
  lemma MissingEmailNeverSends(req: Request, provider: Email -> ProviderOutcome)
    requires req.verb == "POST" && !Truthy(req.body.email)
    ensures Handle(req, provider).response.status == 400
    ensures Handle(req, provider).sent == None
  {
  }
}

=== FILE: seqs.dfy ===
/**
 Array operations the components use, over Dafny sequences: `filter`,
 `slice(0, n)`, removal of one position, and repetition by spreading.
 */
module Seqs {

  function Min(a: int, b: int): int {
    if a <= b then a else b
  }

  /** `a` is an order-preserving subsequence of `b`. */
  predicate IsSubsequence<T(==)>(a: seq<T>, b: seq<T>)
    decreases |b|
  {
    if |a| == 0 then true
    else if |b| == 0 then false
    else if a[0] == b[0] then IsSubsequence(a[1..], b[1..])
    else IsSubsequence(a, b[1..])
  }

  /** A subsequence is never longer than the sequence it is drawn from. */
  lemma {:induction false} SubsequenceLength<T>(a: seq<T>, b: seq<T>)
    requires IsSubsequence(a, b)
    ensures |a| <= |b|
    decreases |b|
  {
    if |a| > 0 {
      if a[0] == b[0] {
        SubsequenceLength(a[1..], b[1..]);
      } else {
        SubsequenceLength(a, b[1..]);
      }
    }
  }

  /** Every sequence is a subsequence of itself. */
  lemma {:induction false} SubsequenceReflexive<T>(a: seq<T>)
    ensures IsSubsequence(a, a)
    decreases |a|
  {
    if |a| > 0 {
      SubsequenceReflexive(a[1..]);
    }
  }

  /** `s.filter(keep)`: the elements satisfying `keep`, in their original order. */
  function Filter<T(==)>(keep: T -> bool, s: seq<T>): (r: seq<T>)
    ensures |r| <= |s|
    ensures forall i :: 0 <= i < |r| ==> keep(r[i]) && r[i] in s
    ensures forall i :: 0 <= i < |s| && keep(s[i]) ==> s[i] in r
    decreases |s|
  {
    if |s| == 0 then []
    else
      var rest := Filter(keep, s[1..]);
      assert forall i :: 1 <= i < |s| ==> s[i] == s[1..][i - 1];
      if keep(s[0]) then [s[0]] + rest else rest
  }

  /** The filtered sequence is an order-preserving subsequence of the input. */
  lemma {:induction false} FilterIsSubsequence<T>(keep: T -> bool, s: seq<T>)
    ensures IsSubsequence(Filter(keep, s), s)
    decreases |s|
  {
    if |s| > 0 {
      FilterIsSubsequence(keep, s[1..]);
      var rest := Filter(keep, s[1..]);
      if keep(s[0]) {
        assert Filter(keep, s) == [s[0]] + rest;
        assert ([s[0]] + rest)[1..] == rest;
      } else {
        assert |rest| > 0 ==> keep(rest[0]);
      }
    }
  }

  /** Filtering distributes over concatenation. */
  lemma {:induction false} FilterAppend<T>(keep: T -> bool, a: seq<T>, b: seq<T>)
    ensures Filter(keep, a + b) == Filter(keep, a) + Filter(keep, b)
    decreases |a|
  {
    if |a| == 0 {
      assert a + b == b;
    } else {
      assert (a + b)[0] == a[0];
      assert (a + b)[1..] == a[1..] + b;
      FilterAppend(keep, a[1..], b);
    }
  }

  /** On one element, the filter keeps it exactly when it passes. With
      `FilterAppend` this fixes the result on every input, copies included:
      each position of the input contributes itself or nothing. */
  lemma FilterSingleton<T>(keep: T -> bool, x: T)
    ensures Filter(keep, [x]) == (if keep(x) then [x] else [])
  {
  }

  /** The filter keeps every copy of a passing element and no copy of any
      other: it neither duplicates nor loses occurrences. */
  lemma {:induction false} FilterCounts<T>(keep: T -> bool, s: seq<T>)
    ensures forall x :: multiset(Filter(keep, s))[x] == if keep(x) then multiset(s)[x] else 0
    decreases |s|
  {
    if |s| > 0 {
      FilterCounts(keep, s[1..]);
      assert s == [s[0]] + s[1..];
      assert multiset(s) == multiset([s[0]]) + multiset(s[1..]);
    }
  }

  /** A filter whose predicate holds everywhere keeps everything. */
  lemma {:induction false} FilterAll<T>(keep: T -> bool, s: seq<T>)
    requires forall i :: 0 <= i < |s| ==> keep(s[i])
    ensures Filter(keep, s) == s
    decreases |s|
  {
    if |s| > 0 {
      FilterAll(keep, s[1..]);
    }
  }

  /** `s.slice(0, n)` for `n >= 0`: the first `n` elements, or all of them. */
  function Take<T>(s: seq<T>, n: nat): (r: seq<T>)
    ensures |r| == Min(n, |s|)
    ensures r <= s
  {
    if n <= |s| then s[..n] else s
  }

  /** Taking `n` twice across an append is the same as taking `n` once. */
  lemma TakeAppendTake<T>(a: seq<T>, b: seq<T>, n: nat)
    ensures Take(Take(a, n) + b, n) == Take(a + b, n)
  {
    if n < |a| {
      assert (a[..n] + b)[..n] == a[..n];
      assert (a + b)[..n] == a[..n];
    }
  }

  lemma AppendAssociative<T>(a: seq<T>, b: seq<T>, c: seq<T>)
    ensures a + b + c == a + (b + c)
  {
  }

  /** Cutting a concatenation whose first part fits keeps the first part
      whole and cuts the second part to the room left. */
  lemma TakeAfterPrefix<T>(a: seq<T>, b: seq<T>, n: nat)
    requires |a| <= n
    ensures Take(a + b, n) == a + Take(b, n - |a|)
  {
    if n - |a| <= |b| {
      assert (a + b)[..n] == a + b[..n - |a|];
    }
  }

  /** `s.filter((_, i) => i !== index)`: every element except the one at
      position `index`; an index outside the sequence removes nothing. */
  function RemoveAt<T>(s: seq<T>, index: int): (r: seq<T>)
    ensures 0 <= index < |s| ==> r == s[..index] + s[index + 1..]
    ensures !(0 <= index < |s|) ==> r == s
    decreases |s|
  {
    if |s| == 0 then []
    else
      var rest := RemoveAt(s[1..], index - 1);
      assert 0 < index < |s| ==> s[1..][..index - 1] == s[1..index] && s[1..][index..] == s[index + 1..];
      (if index == 0 then [] else [s[0]]) + rest
  }

  /** `s` spread `k` times into one array: `[...s, ...s, ..., ...s]`. The
      result starts with `s` and is periodic with period `|s|`. */
  function Repeat<T>(s: seq<T>, k: nat): (r: seq<T>)
    ensures |r| == k * |s|
    ensures k > 0 ==> r[..|s|] == s
    ensures forall i :: 0 <= i < |r| - |s| ==> r[i + |s|] == r[i]
    decreases k
  {
    if k == 0 then []
    else
      var rest := Repeat(s, k - 1);
      assert k - 1 > 0 ==> rest[..|s|] == s;
      s + rest
  }
}

=== FILE: skills.dfy ===
/**
 The skills marquee (Exemple/Skills.tsx): the skill list is cut into two
 halves, the first one rounded up, and each half is repeated four times to
 make one scrolling row (the animation translates by -50%, so the count
 must be even).
 */
module SkillsMarquee {
  import opened Seqs

  datatype SkillCategory = Backend | Frontend | Tools | Cms

  /** The icon is a component reference, kept as its name. */
  datatype Skill = Skill(name: string, icon: string, category: SkillCategory)

  /** The number of copies of each half in a row. */
  const Copies: nat := 4

  /** `Math.ceil(n / 2)`. */
  function HalfLength(n: nat): (h: nat)
    ensures 2 * h == n || 2 * h == n + 1
  {
    (n + 1) / 2
  }

  datatype Rows = Rows(firstHalf: seq<Skill>, secondHalf: seq<Skill>, row1: seq<Skill>, row2: seq<Skill>)

  /** The two halves and the two rows. The halves put back together are the
      list; the first half is as long as the second or one longer; each row
      is its half four times over. */
  function Marquee(skills: seq<Skill>): (m: Rows)
    ensures m.firstHalf + m.secondHalf == skills
    ensures |m.firstHalf| == |m.secondHalf| || |m.firstHalf| == |m.secondHalf| + 1
    ensures |m.row1| == Copies * |m.firstHalf| && |m.row2| == Copies * |m.secondHalf|
    ensures |skills| > 0 ==> m.row1[..|m.firstHalf|] == m.firstHalf
    ensures |m.secondHalf| > 0 ==> m.row2[..|m.secondHalf|] == m.secondHalf
    ensures forall i :: 0 <= i < |m.row1| - |m.firstHalf| ==> m.row1[i + |m.firstHalf|] == m.row1[i]
    ensures forall i :: 0 <= i < |m.row2| - |m.secondHalf| ==> m.row2[i + |m.secondHalf|] == m.row2[i]
  {
    var half := HalfLength(|skills|);
    var first := skills[..half];
    var second := skills[half..];
    assert first + second == skills;
    Rows(first, second, Repeat(first, Copies), Repeat(second, Copies))
  }

  /** Each row is its half spread four times, `[...h, ...h, ...h, ...h]`, and
      its second half repeats its first: the -50% translation lands on an
      identical frame. */
  lemma RowsLoopSeamlessly(skills: seq<Skill>)
    ensures var m := Marquee(skills);
      && m.row1 == m.firstHalf + m.firstHalf + m.firstHalf + m.firstHalf
      && m.row2 == m.secondHalf + m.secondHalf + m.secondHalf + m.secondHalf
      && m.row1[..|m.row1| / 2] == m.row1[|m.row1| / 2..]
      && m.row2[..|m.row2| / 2] == m.row2[|m.row2| / 2..]
  {
    var m := Marquee(skills);
    RepeatFour(m.firstHalf);
    RepeatFour(m.secondHalf);
  }

  lemma RepeatFour<T>(h: seq<T>)
    ensures Repeat(h, 4) == h + h + h + h
    ensures var r := Repeat(h, 4); r[..|r| / 2] == r[|r| / 2..]
  {
    var r := Repeat(h, 4);
    assert Repeat(h, 0) == [];
    assert Repeat(h, 1) == h;
    assert Repeat(h, 2) == h + h;
    assert Repeat(h, 3) == h + (h + h);
    assert r == h + h + h + h;
    assert r[..|r| / 2] == h + h;
    assert r[|r| / 2..] == h + h;
  }
}

=== FILE: submit_onboarding.dfy ===
/**
 The onboarding submission endpoint (api/submit-onboarding.ts): accepts only
 POST, turns the base64 logo and photos of the JSON body into email
 attachments, renders the answers into an HTML message and hands both to the
 email provider, then maps the provider's answer to an HTTP status.

 As written, no field is HTML-escaped: the only transformation of free text is
 the line-feed to `<br>` replacement in `presentation` and `services`.
 */
module SubmitOnboarding {
  import opened Js
  import opened Seqs
  import opened Http

  /** `photos` as found in the body: an array (whose entries may be missing or
      empty) or anything else, which `Array.isArray` rejects. */
  datatype PhotosField = NotArray | PhotoArray(entries: seq<Option<string>>)

  /** `hours` as found in the body: missing, `null`, a string, or an object
      (the wizard sends its per-day schedule object). */
  datatype HoursField = HoursMissing | HoursNull | HoursString(text: string) | HoursObject

  /** The fields of the parsed JSON body the handler can see. The fields the
      message interpolates directly are `Field`s, which keep `null` apart from
      a missing field; the others are only tested for truthiness or given an
      `||` fallback, where the two behave alike. */
  datatype OnboardingBody = OnboardingBody(
    clientName: Option<string>,
    firstName: Field,
    lastName: Field,
    companyName: Field,
    logo: Option<string>,
    photos: PhotosField,
    logoName: Option<string>,
    photoNames: Option<seq<Option<string>>>,
    presentation: Option<string>,
    services: Option<string>,
    phone: Field,
    email: Field,
    address: Field,
    hours: HoursField,
    socials: Field,
    transferLink: Option<string>)

  datatype Request = Request(verb: string, body: OnboardingBody)

  const From: string := "Onboarding <onboarding@resend.dev>"
  const Owner: string := "julienldev@gmail.com"
  const DefaultLogoName: string := "logo.png"
  const NotProvided: string := "Non renseigné"

  // ---------------------------------------------------------------------------
  // Attachments
  // ---------------------------------------------------------------------------

  /** `s.includes(',') ? s.split(',')[1] : s`: the segment between the first
      and the second comma, or the whole string when it has no comma. */
  function AttachmentContent(s: string): (c: string)
    ensures ',' !in c
    ensures ',' !in s ==> c == s
    ensures |c| < |s| || ',' !in s
  {
    if ',' in s then
      var parts := Split(s, ',');
      CountPositive(s, ',');
      assert |Join(parts, ',')| == |parts[0]| + 1 + |Join(parts[1..], ',')|;
      JoinLength(parts[1..], ',');
      parts[1]
    else s
  }

  lemma {:induction false} JoinLength(parts: seq<string>, sep: char)
    requires |parts| >= 1
    ensures |Join(parts, sep)| >= |parts[0]|
    decreases |parts|
  {
  }

  /** The data URLs the browser produces decode to their payload: for a marker
      and a payload without commas, `marker,payload` yields `payload`; a bare
      payload is kept as is. */
  lemma ContentRoundTrip(marker: string, payload: string)
    requires ',' !in marker && ',' !in payload
    ensures AttachmentContent(marker + "," + payload) == payload
    ensures AttachmentContent(payload) == payload
  {
    SplitAfterPrefix(marker, payload, ',');
    SplitNoSeparator(payload, ',');
    assert ',' in marker + "," + payload by {
      assert (marker + "," + payload)[|marker|] == ',';
    }
  }

  /** As written, everything from a second comma on is lost. */
  lemma ContentStopsAtSecondComma(marker: string, payload: string, tail: string)
    requires ',' !in marker && ',' !in payload
    ensures AttachmentContent(marker + "," + payload + "," + tail) == payload
  {
    var s := marker + "," + payload + "," + tail;
    assert s == marker + [','] + (payload + [','] + tail);
    assert s[|marker|] == ',';
    SplitAfterPrefix(marker, payload + [','] + tail, ',');
    SplitAfterPrefix(payload, tail, ',');
  }

  /** The example from the wizard: a PNG data URL keeps only its base64 part. */
  lemma PngDataUrlContent(payload: string)
    requires ',' !in payload
    ensures AttachmentContent("data:image/png;base64," + payload) == payload
  {
    var marker := "data:image/png;base64";
    assert ',' !in marker;
    assert marker + "," + payload == "data:image/png;base64," + payload;
    ContentRoundTrip(marker, payload);
  }

  /** `(photoNames && photoNames[index]) || `photo-${index + 1}.png``. */
  function PhotoName(names: Option<seq<Option<string>>>, index: nat): string {
    var given := if names.Some? && index < |names.value| then names.value[index] else None;
    OrElse(given, "photo-" + DecimalString(index + 1) + ".png")
  }

  /** When no usable name was sent, photos at distinct positions get distinct
      default names. */
  lemma DefaultPhotoNamesDistinct(i: nat, j: nat)
    requires i != j
    ensures PhotoName(None, i) != PhotoName(None, j)
  {
    var di := DecimalString(i + 1);
    var dj := DecimalString(j + 1);
    var a := PhotoName(None, i);
    var b := PhotoName(None, j);
    assert a == "photo-" + di + ".png";
    assert b == "photo-" + dj + ".png";
    if a == b {
      assert a[6..|a| - 4] == di;
      assert b[6..|b| - 4] == dj;
      DecimalRoundTrip(i + 1);
      DecimalRoundTrip(j + 1);
      assert false;
    }
  }

  function PhotoAttachment(entries: seq<Option<string>>, names: Option<seq<Option<string>>>, index: nat): Attachment
    requires index < |entries| && Truthy(entries[index])
  {
    Attachment(AttachmentContent(entries[index].value), PhotoName(names, index))
  }

  /** The positions of the truthy entries, in increasing order
      (`TruthyIndicesOrdered` states the order and completeness). */
  function TruthyIndices(entries: seq<Option<string>>): (ix: seq<nat>)
    ensures forall k :: 0 <= k < |ix| ==> ix[k] < |entries| && Truthy(entries[ix[k]])
    ensures |ix| <= |entries|
    decreases |entries|
  {
    if |entries| == 0 then []
    else
      var n := |entries| - 1;
      var front := TruthyIndices(entries[..n]);
      assert forall i :: 0 <= i < n ==> entries[..n][i] == entries[i];
      front + (if Truthy(entries[n]) then [n] else [])
  }

  /** The truthy positions are listed in strictly increasing order, and every
      truthy position is listed. */
  lemma {:induction false} TruthyIndicesOrdered(entries: seq<Option<string>>)
    ensures var ix := TruthyIndices(entries);
      && (forall k, l :: 0 <= k < l < |ix| ==> ix[k] < ix[l])
      && (forall i :: 0 <= i < |entries| && Truthy(entries[i]) ==> i in ix)
    decreases |entries|
  {
    if |entries| > 0 {
      var n := |entries| - 1;
      var front := entries[..n];
      TruthyIndicesOrdered(front);
      var fx := TruthyIndices(front);
      var ix := TruthyIndices(entries);
      assert ix == fx + (if Truthy(entries[n]) then [n] else []);
      forall i | 0 <= i < n && Truthy(entries[i])
        ensures i in ix
      {
        assert front[i] == entries[i];
      }
    }
  }

  /** `photos.forEach((photo, index) => { if (photo) attachments.push(...) })`:
      one attachment per truthy entry, in array order, each named after its
      ORIGINAL position even when earlier entries were skipped. */
  function PhotoAttachments(entries: seq<Option<string>>, names: Option<seq<Option<string>>>): (r: seq<Attachment>)
    ensures |r| == |TruthyIndices(entries)|
    ensures forall k :: 0 <= k < |r| ==> r[k] == PhotoAttachment(entries, names, TruthyIndices(entries)[k])
    decreases |entries|
  {
    if |entries| == 0 then []
    else
      var n := |entries| - 1;
      var front := PhotoAttachments(entries[..n], names);
      assert forall i :: 0 <= i < n ==> entries[..n][i] == entries[i];
      assert forall k :: 0 <= k < |front| ==>
        PhotoAttachment(entries[..n], names, TruthyIndices(entries[..n])[k])
        == PhotoAttachment(entries, names, TruthyIndices(entries)[k]);
      front + (if Truthy(entries[n]) then [PhotoAttachment(entries, names, n)] else [])
  }

  function LogoAttachments(body: OnboardingBody): seq<Attachment> {
    if Truthy(body.logo) then
      [Attachment(AttachmentContent(body.logo.value), OrElse(body.logoName, DefaultLogoName))]
    else []
  }

  /** All attachments: the logo first (if any), then the photos (if `photos` is
      an array). */
  function Attachments(body: OnboardingBody): (r: seq<Attachment>)
    ensures |r| == (if Truthy(body.logo) then 1 else 0)
                 + (if body.photos.PhotoArray? then |TruthyIndices(body.photos.entries)| else 0)
    ensures Truthy(body.logo) ==>
      r[0] == Attachment(AttachmentContent(body.logo.value), OrElse(body.logoName, DefaultLogoName))
    ensures body.photos.NotArray? ==> r == LogoAttachments(body)
    ensures body.photos.PhotoArray? ==>
      r == LogoAttachments(body) + PhotoAttachments(body.photos.entries, body.photoNames)
  {
    LogoAttachments(body)
      + (if body.photos.PhotoArray? then PhotoAttachments(body.photos.entries, body.photoNames) else [])
  }

  /** A missing logo name falls back to `logo.png`: the data URL example. */
  lemma LogoExample(body: OnboardingBody, payload: string)
    requires ',' !in payload
    requires body.logo == Some("data:image/png;base64," + payload) && body.logoName == None
    ensures Attachments(body)[0] == Attachment(payload, "logo.png")
  {
    PngDataUrlContent(payload);
  }

  /** A skipped entry still counts for the default names of the later ones. */
  lemma PhotoIndexKept(photo: string)
    requires ',' !in photo && photo != ""
    ensures PhotoAttachments([None, Some(photo)], None) == [Attachment(photo, "photo-2.png")]
  {
    var entries: seq<Option<string>> := [None, Some(photo)];
    assert entries[..1] == [None];
    assert entries[..1][..0] == [];
    assert PhotoAttachments(entries[..1], None) == [];
    assert DecimalString(2) == "2";
    assert PhotoName(None, 1) == "photo-2.png";
    assert PhotoAttachment(entries, None, 1) == Attachment(photo, "photo-2.png");
  }

  // ---------------------------------------------------------------------------
  // Message
  // ---------------------------------------------------------------------------

  /** `value?.replace(/\n/g, '<br>') || 'Non renseigné'`. */
  function RenderText(value: Option<string>): (r: string)
    ensures '\n' !in r
    ensures Truthy(value) ==> r == BreakLines(value.value)
    ensures !Truthy(value) ==> r == NotProvided
  {
    OrElse(if value.Some? then Some(BreakLines(value.value)) else None, NotProvided)
  }

  /** `${hours}`: an object renders as `[object Object]`. */
  function RenderHours(hours: HoursField): string {
    match hours
    case HoursMissing => "undefined"
    case HoursNull => "null"
    case HoursString(text) => text
    case HoursObject => "[object Object]"
  }

  /** The subject line starts with this tag, followed by the company name. */
  const SubjectTag: string := "[ONBOARDING] Nouveau dossier : "

  function Subject(body: OnboardingBody): string {
    SubjectTag + Interpolate(body.companyName)
  }

  /** The template's line break and indentation before each top-level line,
      and before each list item. */
  const Indent: string := "\n        "
  const ItemIndent: string := "\n            "

  const HeadingOpen: string := "<h1>Nouveau Dossier Client : "
  const CompanyOpen: string := "<p><strong>Entreprise :</strong> "
  const PresentationOpen: string := "<h3>Présentation</h3>" + Indent + "<p>"
  const ServicesOpen: string := "<h3>Services</h3>" + Indent + "<p>"

  /** What precedes the client name on the client line: the contact's first
      and last names. */
  function ClientOpen(body: OnboardingBody): string {
    "<p><strong>Client :</strong> " + Interpolate(body.firstName) + " " + Interpolate(body.lastName) + " ("
  }

  /** The heading and the client line. */
  function HtmlClient(body: OnboardingBody): string {
    Indent + (HeadingOpen + Interpolate(body.companyName) + "</h1>")
    + (Indent + (ClientOpen(body) + OrElse(body.clientName, "N/A") + ")</p>") + Indent)
  }

  const IdentityHeading: string := Indent + "<h2>1. Identité</h2>" + Indent
  const ContentHeading: string := Indent + "<h2>2. Contenu</h2>" + Indent

  /** Section 1: the company. */
  function HtmlIdentity(body: OnboardingBody): string {
    IdentityHeading
    + (CompanyOpen + Interpolate(body.companyName) + "</p>")
    + Indent
  }

  /** Section 2: the presentation and the services. */
  function HtmlContent(body: OnboardingBody): string {
    ContentHeading
    + (PresentationOpen + RenderText(body.presentation) + "</p>")
    + (Indent + (ServicesOpen + RenderText(body.services) + "</p>") + Indent)
  }

  const ContactHeading: string := Indent + "<h2>3. Contact</h2>" + Indent + "<ul>"
  const EmailItem: string := ItemIndent + "<li><strong>Email :</strong> "
  const PhoneItem: string := ItemIndent + "<li><strong>Téléphone :</strong> "
  const AddressItem: string := ItemIndent + "<li><strong>Adresse :</strong> "
  const HoursItem: string := ItemIndent + "<li><strong>Horaires :</strong> "
  const SocialsItem: string := ItemIndent + "<li><strong>Réseaux :</strong> "
  const ContactEnd: string := Indent + "</ul>" + "\n      "

  /** Section 3: the contact details, and the end of the message. */
  function HtmlContact(body: OnboardingBody): string {
    ContactHeading
    + (EmailItem + Interpolate(body.email) + "</li>")
    + (PhoneItem + Interpolate(body.phone) + "</li>")
    + (AddressItem + Interpolate(body.address) + "</li>")
    + (HoursItem + RenderHours(body.hours) + "</li>")
    + (SocialsItem + Interpolate(body.socials) + "</li>")
    + ContactEnd
  }

  /** The HTML message, with the template's own line breaks and indentation. */
  function Html(body: OnboardingBody): string {
    HtmlClient(body) + HtmlIdentity(body) + HtmlContent(body) + HtmlContact(body)
  }

  /** The email handed to the provider. */
  function Compose(body: OnboardingBody): (e: Email)
    ensures e.from == From && e.to == Owner && e.replyTo == body.email
    ensures e.subject == SubjectTag + Interpolate(body.companyName)
    ensures e.attachments == Attachments(body)
  {
    Email(From, Owner, Subject(body), body.email, Html(body), Attachments(body))
  }

  /** A company sent as `null` is named "null" in the subject, and one left
      out is named "undefined". */
  lemma NullCompanySubject(body: OnboardingBody)
    ensures body.companyName == Null ==> Compose(body).subject == SubjectTag + "null"
    ensures body.companyName == Undefined ==> Compose(body).subject == SubjectTag + "undefined"
  {
  }

  /** Where the client's answers appear in the message: the company in the
      heading, the contact's names followed by the client name (or `N/A`) in
      parentheses, then the company again under "Entreprise". */
  lemma HtmlShowsClient(body: OnboardingBody)
    ensures Encloses(Html(body), HeadingOpen, Interpolate(body.companyName), "</h1>")
    ensures Encloses(Html(body), ClientOpen(body), OrElse(body.clientName, "N/A"), ")</p>")
    ensures Encloses(Html(body), CompanyOpen, Interpolate(body.companyName), "</p>")
  {
    var company := Interpolate(body.companyName);
    var client := OrElse(body.clientName, "N/A");
    var head := HtmlClient(body);
    var identity := HtmlIdentity(body);
    EnclosesAt(Indent, HeadingOpen, company, "</h1>", Indent + (ClientOpen(body) + client + ")</p>") + Indent);
    EnclosesAt(Indent, ClientOpen(body), client, ")</p>", Indent);
    EnclosesPrepend(Indent + (HeadingOpen + company + "</h1>"), Indent + (ClientOpen(body) + client + ")</p>") + Indent,
                    ClientOpen(body), client, ")</p>");
    EnclosesAt(IdentityHeading, CompanyOpen, company, "</p>", Indent);
    EnclosesAppend(head, identity, HeadingOpen, company, "</h1>");
    EnclosesAppend(head, identity, ClientOpen(body), client, ")</p>");
    EnclosesPrepend(head, identity, CompanyOpen, company, "</p>");
    ShownInWholeMessage(body, head + identity, HeadingOpen, company, "</h1>");
    ShownInWholeMessage(body, head + identity, ClientOpen(body), client, ")</p>");
    ShownInWholeMessage(body, head + identity, CompanyOpen, company, "</p>");
  }

  /** Whatever the first two parts of the message enclose, the message does. */
  lemma ShownInWholeMessage(body: OnboardingBody, front: string, open: string, x: string, close: string)
    requires front == HtmlClient(body) + HtmlIdentity(body)
    requires Encloses(front, open, x, close)
    ensures Encloses(Html(body), open, x, close)
  {
    EnclosesAppend(front, HtmlContent(body), open, x, close);
    EnclosesAppend(front + HtmlContent(body), HtmlContact(body), open, x, close);
  }

  /** The presentation and the services, as `RenderText` renders them, each
      in the paragraph under its own heading. */
  lemma HtmlShowsContent(body: OnboardingBody)
    ensures Encloses(Html(body), PresentationOpen, RenderText(body.presentation), "</p>")
    ensures Encloses(Html(body), ServicesOpen, RenderText(body.services), "</p>")
  {
    var presentation := RenderText(body.presentation);
    var services := RenderText(body.services);
    var a := ContentHeading;
    var b := Indent + (ServicesOpen + services + "</p>") + Indent;
    EnclosesAt(a, PresentationOpen, presentation, "</p>", b);
    EnclosesAt(Indent, ServicesOpen, services, "</p>", Indent);
    EnclosesPrepend(a + (PresentationOpen + presentation + "</p>"), b, ServicesOpen, services, "</p>");
    var front := HtmlClient(body) + HtmlIdentity(body);
    var content := HtmlContent(body);
    EnclosesPrepend(front, content, PresentationOpen, presentation, "</p>");
    EnclosesPrepend(front, content, ServicesOpen, services, "</p>");
    EnclosesAppend(front + content, HtmlContact(body), PresentationOpen, presentation, "</p>");
    EnclosesAppend(front + content, HtmlContact(body), ServicesOpen, services, "</p>");
  }

  /** The contact details, each in its labelled item of the "3. Contact"
      list: the email, phone, address and social links as interpolated, and
      the hours as `${hours}` renders them. */
  lemma HtmlShowsContact(body: OnboardingBody)
    ensures Encloses(Html(body), EmailItem, Interpolate(body.email), "</li>")
    ensures Encloses(Html(body), PhoneItem, Interpolate(body.phone), "</li>")
    ensures Encloses(Html(body), AddressItem, Interpolate(body.address), "</li>")
    ensures Encloses(Html(body), HoursItem, RenderHours(body.hours), "</li>")
    ensures Encloses(Html(body), SocialsItem, Interpolate(body.socials), "</li>")
  {
    var e := Interpolate(body.email);
    var p := Interpolate(body.phone);
    var a := Interpolate(body.address);
    var h := RenderHours(body.hours);
    var s := Interpolate(body.socials);
    var s0 := ContactHeading;
    var s1 := s0 + (EmailItem + e + "</li>");
    var s2 := s1 + (PhoneItem + p + "</li>");
    var s3 := s2 + (AddressItem + a + "</li>");
    var s4 := s3 + (HoursItem + h + "</li>");
    var s5 := s4 + (SocialsItem + s + "</li>");
    EnclosesAt(s0, EmailItem, e, "</li>", PhoneItem + p + "</li>");
    ShownInContact(body, s2, 2, EmailItem, e);
    EnclosesAt(s1, PhoneItem, p, "</li>", AddressItem + a + "</li>");
    ShownInContact(body, s3, 3, PhoneItem, p);
    EnclosesAt(s2, AddressItem, a, "</li>", HoursItem + h + "</li>");
    ShownInContact(body, s4, 4, AddressItem, a);
    EnclosesAt(s3, HoursItem, h, "</li>", SocialsItem + s + "</li>");
    ShownInContact(body, s5, 5, HoursItem, h);
    EnclosesAt(s4, SocialsItem, s, "</li>", ContactEnd);
    ShownInContact(body, s5 + ContactEnd, 6, SocialsItem, s);
  }

  /** The first `k` parts of the contact section, the heading being part 0
      and the closing `</ul>` part 6. */
  function ContactPrefix(body: OnboardingBody, k: nat): string
    requires k <= 6
  {
    var s0 := ContactHeading;
    var s1 := s0 + (EmailItem + Interpolate(body.email) + "</li>");
    var s2 := s1 + (PhoneItem + Interpolate(body.phone) + "</li>");
    var s3 := s2 + (AddressItem + Interpolate(body.address) + "</li>");
    var s4 := s3 + (HoursItem + RenderHours(body.hours) + "</li>");
    var s5 := s4 + (SocialsItem + Interpolate(body.socials) + "</li>");
    if k == 1 then s1 else if k == 2 then s2 else if k == 3 then s3 else if k == 4 then s4
    else if k == 5 then s5 else if k == 6 then s5 + ContactEnd
    else s0
  }

  /** Whatever a prefix of the contact section encloses, the message does. */
  lemma ShownInContact(body: OnboardingBody, front: string, k: nat, open: string, x: string)
    requires 2 <= k <= 6 && front == ContactPrefix(body, k)
    requires Encloses(front, open, x, "</li>")
    ensures Encloses(Html(body), open, x, "</li>")
    decreases 6 - k
  {
    if k < 6 {
      var next := ContactPrefix(body, k + 1);
      EnclosesAppend(front, next[|front|..], open, x, "</li>");
      assert front + next[|front|..] == next;
      ShownInContact(body, next, k + 1, open, x);
    } else {
      assert front == HtmlContact(body);
      EnclosesPrepend(HtmlClient(body) + HtmlIdentity(body) + HtmlContent(body), front, open, x, "</li>");
    }
  }

  /** The message does not depend on `transferLink`, which the handler never
      reads, nor on the contents of an object-valued `hours`. */
  lemma ComposeIgnoresTransferLink(body: OnboardingBody, link: Option<string>)
    ensures Compose(body.(transferLink := link)) == Compose(body)
  {
  }

  // ---------------------------------------------------------------------------
  // Handler
  // ---------------------------------------------------------------------------

  /** The request handler, with the email provider as a parameter. */
  function Handle(req: Request, provider: Email -> ProviderOutcome): (h: Handled)
    ensures req.verb != "POST" ==> h == Rejected
    ensures h.sent.Some? <==> req.verb == "POST"
    ensures h.sent.Some? ==> h.sent.value == Compose(req.body)
    ensures h.response.status == 200 <==>
      req.verb == "POST" && provider(Compose(req.body)).Delivered?
    ensures h.response.status == 200 ==>
      h.response.body == SuccessBody(provider(Compose(req.body)).data)
    ensures h.response.status == 400 <==>
      req.verb == "POST" && provider(Compose(req.body)).ProviderError?
    ensures h.response.status == 400 ==>
      h.response.body == ErrorBody(provider(Compose(req.body)).message)
    ensures h.response.status == 500 <==>
      req.verb == "POST" && provider(Compose(req.body)).ProviderThrew?
    ensures h.response.status == 500 ==>
      h.response.body == ErrorBody(OrElse(provider(Compose(req.body)).reason, InternalError))
  {
    if req.verb != "POST" then Rejected
    else
      var email := Compose(req.body);
      Handled(ProviderResponse(provider(email), true), Some(email))
  }
}

=== FILE: theme.dfy ===
/**
 The site theme (App.tsx): the initial theme read back from storage, the
 toggle, and the effect that mirrors the theme into the `dark` class of the
 document element and into storage under the key `theme`.
 */
module Theme {
  import opened Js

  datatype Theme = Light | Dark

  /** The storage key. */
  const Key: string := "theme"

  /** The value stored for a theme. */
  function Name(t: Theme): string {
    match t
    case Light => "light"
    case Dark => "dark"
  }

  /** The initial theme: the stored value when it names a theme, light for
      anything else, and light when there is no `window` (server rendering). */
  function InitialTheme(hasWindow: bool, stored: Option<string>): (t: Theme)
    ensures hasWindow && stored.Some? && (stored.value == "dark" || stored.value == "light") ==> Name(t) == stored.value
    ensures t == Dark <==> hasWindow && stored == Some("dark")
    ensures t == Light <==> !hasWindow || stored != Some("dark")
  {
    if hasWindow then
      if stored == Some("dark") then Dark
      else if stored == Some("light") then Light
      else Light
    else Light
  }

  /** `toggleTheme`. */
  function Toggle(t: Theme): (r: Theme)
    ensures r != t
  {
    if t == Dark then Light else Dark
  }

  /** The document and storage as the effect leaves them. */
  datatype Document = Document(theme: Theme, darkClass: bool, stored: Option<string>)

  /** The effect run after each theme change. */
  function Persist(d: Document): (r: Document)
    ensures r.theme == d.theme
    ensures r.darkClass <==> r.theme == Dark
    ensures r.stored == Some(Name(r.theme))
  {
    if d.theme == Dark then d.(darkClass := true, stored := Some("dark"))
    else d.(darkClass := false, stored := Some("light"))
  }

  /** The page at load: the initial theme, then the effect. */
  function Load(hasWindow: bool, stored: Option<string>, darkClass: bool): Document {
    Persist(Document(InitialTheme(hasWindow, stored), darkClass, stored))
  }

  /** Clicking the toggle: a new theme, then the effect. */
  function ToggleAndPersist(d: Document): Document {
    Persist(d.(theme := Toggle(d.theme)))
  }

  function Toggles(d: Document, k: nat): Document
    decreases k
  {
    if k == 0 then d else Toggles(ToggleAndPersist(d), k - 1)
  }

  /** The stored value is read back as the theme that wrote it. */
  lemma StoredNameReadsBack(t: Theme)
    ensures InitialTheme(true, Some(Name(t))) == t
  {
  }

  /** Toggling twice restores the theme. */
  lemma ToggleTwice(t: Theme)
    ensures Toggle(Toggle(t)) == t
  {
  }

  /** After any number of clicks from any load, the class and the stored
      value agree with the theme, the theme is the loaded one flipped once per
      click, and reloading the page gives back the same theme. */
  lemma {:induction false} TogglesPersist(d: Document, k: nat)
    requires d.darkClass <==> d.theme == Dark
    requires d.stored == Some(Name(d.theme))
    ensures var e := Toggles(d, k);
      && (e.darkClass <==> e.theme == Dark)
      && e.stored == Some(Name(e.theme))
      && e.theme == (if k % 2 == 0 then d.theme else Toggle(d.theme))
      && Load(true, e.stored, e.darkClass) == e
    decreases k
  {
    if k == 0 {
      StoredNameReadsBack(d.theme);
    } else {
      var d' := ToggleAndPersist(d);
      TogglesPersist(d', k - 1);
      ToggleTwice(d.theme);
    }
  }

  /** Whatever was stored, the page after load is consistent. */
  lemma LoadIsConsistent(hasWindow: bool, stored: Option<string>, darkClass: bool)
    ensures var d := Load(hasWindow, stored, darkClass);
      (d.darkClass <==> d.theme == Dark) && d.stored == Some(Name(d.theme))
  {
  }
}
